=== FILE: README.md ===
# kendarago booking front end — a Dafny model

This project models the client-side logic of the kendarago vehicle-rental web
application (React/TypeScript) and proves properties of it:

- the **unified search modal**:
  - the location tab, with its recent-locations history (five entries, de-duplicated by name) and its case-insensitive filter;
  - the date tab, with the two-click range protocol, the quick-select buttons, the month grid, the cell highlighting and the day count;
  - the search hand-off to the results page;
- the **booking form**: the name and phone rules of its schema, the price of the period, the identity-photo upload and the staged submit check;
- the **booking confirmation** page: the booking number, the rental length and the WhatsApp number;
- **formatRupiah**: thousands separators inserted by a regular expression;
- the **sign-up schema**: five rules, all reported together;
- the **vehicle rental picker**: two dates with times and a same-day time check;
- the **bottom navigation bar**: where it is hidden and which item is highlighted.

Modules:

| file | module | role |
|---|---|---|
| `options.dfy` | `Options` | `Option` |
| `seqs.dfy` | `Seqs` | order-preserving `Filter`, subsequences, `slice` helpers |
| `text.dfy` | `Text` | characters, ASCII case mapping, `includes`, digit extraction, decimal rendering and parsing, string `<` |
| `rupiah.dfy` | `Rupiah` | `formatRupiah` |
| `date_range.dfy` | `DateRanges` | day numbers, ranges, day count, cell classes, month grid, month navigation |
| `location_search.dfy` | `LocationSearch` | locations, history, filter |
| `search_session.dfy` | `SearchSession` | the modal's state machine and its invariant |
| `booking_form.dfy` | `BookingForm` | the booking form |
| `booking_confirmation.dfy` | `BookingConfirmation` | the confirmation page |
| `signup.dfy` | `Signup` | `registerValidation` |
| `rental_picker.dfy` | `RentalPicker` | the rental picker |
| `bottom_nav.dfy` | `BottomNav` | the bottom bar |

Conventions:

- **Dates.** A date is a day number (whole local days since 1970-01-01). `startOfDay`, `isBefore` and `toDateString()` comparisons therefore become integer comparisons.
- **Caller-supplied values.** "Today", `Date.now()`, the weekday of a month's first day and the month's length are all supplied by the caller.
- **Confirmation page instants** are integer milliseconds.
- **Email format.** The sign-up email check belongs to the validation library, so it is a function parameter `isEmail`.

- **Locations.** The modal selects `Location` records. Besides the listed places it offers the fixed "Anywhere" entry and, after a geolocation fix, a "Current Location" entry; all three go through `handleSelectLocation`. A search stores its data and navigates to `/results`.

## Model

| member | source | states |
|---|---|---|
| Seqs.Filter | app/components/unified-search-modal.tsx:221-224 | `Array.prototype.filter`: every kept element satisfies the predicate and the result is no longer than the input |
| Seqs.FilterMultiset | app/routes/booking-form.tsx:19 | filtering keeps every occurrence of an element that passes and none of one that fails |
| Seqs.TakeFilterIsFilterOfPrefix | app/components/unified-search-modal.tsx:141-144 | the first n survivors of a filter are the survivors of some prefix of the input: a cut keeps the earliest entries |
| Seqs.FilterMembers | app/components/unified-search-modal.tsx:140 | an element is in the filtered list exactly when it is in the list and satisfies the predicate (both directions) |
| Seqs.FilterIsSubsequence | app/components/unified-search-modal.tsx:221-224 | filtering keeps the surviving elements in their original relative order |
| Seqs.FilterAppend | app/components/unified-search-modal.tsx:221-224 | filtering a concatenation is the concatenation of the filtered parts |
| Seqs.FilterIdempotent | app/components/unified-search-modal.tsx:221-224 | filtering twice by the same test equals filtering once |
| Seqs.SubsequenceDistinct | app/components/unified-search-modal.tsx:140 | dropping elements cannot create two entries with the same key |
| Seqs.Take | app/components/unified-search-modal.tsx:141-144 | `slice(0, n)`: the first min(n, length) elements, unchanged |
| Seqs.Last | app/routes/booking-confirmation.tsx:54-55 | `slice(-n)`: the last min(n, length) elements, unchanged |
| Text.KeepDigits | app/routes/booking-form.tsx:19 | `replace(/\D/g, "")`: only digits remain, in their original order, and every digit of the input is kept |
| Text.KeepDigitsCounts | app/routes/booking-form.tsx:19 | each digit occurs in the result exactly as often as in the input, and no other character occurs |
| Text.KeepDigitsChar | app/routes/booking-form.tsx:19 | one character: a digit is kept, anything else removed; with `KeepDigitsAppend` this determines the result |
| Text.KeepDigitsIdempotent | app/routes/booking-form.tsx:19 | removing non-digits a second time changes nothing |
| Text.KeepDigitsAppend | app/routes/booking-form.tsx:19 | digit extraction distributes over concatenation |
| Text.ContainsOccurs | app/components/unified-search-modal.tsx:223 | `includes` holds exactly when the needle occurs at some index |
| Text.StringLessTrichotomy | app/components/vehicle-rental-picker.tsx:47 | string `<` is trichotomous: exactly one of a < b, a = b, b < a |
| Text.StringLessTransitive | app/components/vehicle-rental-picker.tsx:47 | string `<` is transitive, so with trichotomy it is a strict total order |
| Text.ToDecimal | app/lib/utils/format-rupiah.ts:2 | the decimal rendering of a natural number, as `toString()` gives it for safe integers: non-empty, digits only, leading zero only for 0 |
| Text.ParseToDecimal | app/lib/utils/format-rupiah.ts:2 | reading the decimal rendering back gives the number |
| Text.ToDecimalOfParse | app/lib/utils/format-rupiah.ts:2 | a digit string without a leading zero is the rendering of the number it denotes |
| Text.DecimalLength | app/lib/utils/format-rupiah.ts:2 | the rendering has at most k digits exactly when the number is below 10^k |
| Text.LastTwoDigits | app/routes/booking-confirmation.tsx:54 | the last two characters of a number of two or more digits denote it modulo 100 |
| Text.IntToString | app/routes/booking-confirmation.tsx:54 | `toString()` of any integer: the decimal digits, behind a minus sign when negative |
| Rupiah.FormatRupiah | app/lib/utils/format-rupiah.ts:1-4 | the text starts with `Rp `, and removing the dots from the rest gives back the amount's decimal digits |
| Rupiah.FormatRupiahRoundTrip | app/lib/utils/format-rupiah.ts:1-4 | parsing the formatted text recovers the amount |
| Rupiah.RegexIsGrouping | app/lib/utils/format-rupiah.ts:2 | the global `\B(?=(\d{3})+(?!\d))` replacement equals grouping the digits in threes from the right |
| Rupiah.FormatRupiahGroups | app/lib/utils/format-rupiah.ts:2 | split at the dots, the first group has 1 to 3 digits and every later group has exactly 3 digits |
| Rupiah.FormatRupiahDots | app/lib/utils/format-rupiah.ts:2 | there are (digit count − 1) div 3 separators, and none exactly when the amount is below 1000 |
| Rupiah.GroupedRemoveDots | app/lib/utils/format-rupiah.ts:2 | removing the separators from the grouped digits restores the digits |
| DateRanges.DaysBetween | app/components/unified-search-modal.tsx:256-259 | the set of days from a to b inclusive |
| DateRanges.DaysBetweenSize | app/components/unified-search-modal.tsx:275-284 | that set has b − a + 1 days, or none when b < a |
| DateRanges.DayCount | app/components/unified-search-modal.tsx:275-284 | no count until both endpoints are set; then the number of calendar days the range covers, 1 for a single day |
| DateRanges.ClassifyCell | app/components/unified-search-modal.tsx:697-714 | past, else selected endpoint, else in range, else plain, each stated as an if-and-only-if |
| DateRanges.CommittedRangeCells | app/components/unified-search-modal.tsx:256-273 | for a committed range, the endpoints are highlighted, the days between are shaded and the days outside are plain |
| DateRanges.DaysInMonth | app/components/unified-search-modal.tsx:238-254 | one blank per weekday before the 1st, then every day of the month in order |
| DateRanges.DayColumn | app/components/unified-search-modal.tsx:680-692 | every day lands in the column of its weekday under the Su…Sa header |
| DateRanges.NextMonth | app/components/unified-search-modal.tsx:662-670 | the next month, overflowing December into January of the next year |
| DateRanges.PrevMonth | app/components/unified-search-modal.tsx:646-654 | the previous month, underflowing January into December of the previous year |
| DateRanges.MonthNavigationInverse | app/components/unified-search-modal.tsx:645-671 | the two month buttons undo each other |
| LocationSearch.AddToHistory | app/components/unified-search-modal.tsx:137-148 | the new entry is first; no later entry has its name; the others are exactly the other-named entries of a prefix of the old list, so a cut drops the oldest; the length is the number of other-named entries plus one, capped at 5; when fewer than five other-named entries exist, they are all kept, in order and with their repetitions |
| LocationSearch.AddToHistoryWellFormed | app/components/unified-search-modal.tsx:137-148 | a history of at most five distinct names stays that way |
| LocationSearch.FilterLocations | app/components/unified-search-modal.tsx:221-224 | a location is kept exactly when its lower-cased name contains the lower-cased query; order is kept |
| LocationSearch.FilterLocationsCounts | app/components/unified-search-modal.tsx:221-224 | each matching location occurs in the result as often as in the list, and no other location occurs |
| LocationSearch.FilterLocationsAppend | app/components/unified-search-modal.tsx:226-229 | filtering the combined lists equals combining the filtered lists |
| LocationSearch.FilterLocationsEmptyQuery | app/components/unified-search-modal.tsx:221-224 | an empty query keeps every location |
| LocationSearch.MatchesOccurrence | app/components/unified-search-modal.tsx:222-223 | a match is a case-insensitive occurrence of the query in the name |
| LocationSearch.UbudMatches | app/components/unified-search-modal.tsx:221-224 | typing "ubud" finds "Ubud, Bali" |
| SearchSession.SelectLocation | app/components/unified-search-modal.tsx:151-158 | the location becomes current; the history is updated by `AddToHistory`, so it inherits that member's guarantees; the dates tab opens; dates, category, month and query are untouched |
| SearchSession.DateClick | app/components/unified-search-modal.tsx:189-210 | past days are ignored; the first click starts a range; an earlier second click restarts it; otherwise the range is committed and the vehicle tab opens |
| SearchSession.QuickSelect | app/components/unified-search-modal.tsx:212-218 | a committed range starting today whose day count is exactly the button's number of days; the vehicle tab opens; location, category, history, month and query are untouched |
| SearchSession.Search | app/components/unified-search-modal.tsx:289-310 | search data exists exactly when a location and both dates are set, and it carries them and the category |
| SearchSession.SearchOrdered | app/components/unified-search-modal.tsx:289-310 | in a session that keeps the invariant, the search data handed to the results page has today ≤ start ≤ end, and the day count is end − start + 1 |
| SearchSession.ShortcutsSelect | app/components/unified-search-modal.tsx:160-186 | "Anywhere" at (0, 0) and a geolocation fix as "Current Location" at its coordinates are selected like any location: current, first in the history, dates tab open |
| SearchSession.Step | app/components/unified-search-modal.tsx:645-671 | every user event keeps the displayed month a real month |
| SearchSession.InitialInv | app/components/unified-search-modal.tsx:83-97 | the modal at its first mount satisfies the session invariant, given a well-formed stored history |
| SearchSession.StepInv | app/components/unified-search-modal.tsx:189-218 | every event the markup offers preserves the session invariant (range shape, today ≤ start ≤ end, well-formed history) |
| SearchSession.RunInv | app/components/unified-search-modal.tsx:189-218 | every sequence of offered events preserves the session invariant |
| SearchSession.SessionSafety | app/components/unified-search-modal.tsx:189-218 | from the first mount, a committed range has today ≤ start ≤ end and counts at least one day; the history never exceeds 5 |
| SearchSession.SurabayaScenario | app/components/unified-search-modal.tsx:151-210 | pick Surabaya Gubeng Station from the offered list, click two days, search: the tabs advance and the search carries the 5-day range and the default category |
| BookingForm.FullNameError | app/routes/booking-form.tsx:11-14 | no error exactly for 3 to 50 characters, with the matching message for a name that is too short or too long |
| BookingForm.PhoneError | app/routes/booking-form.tsx:15-21 | no error exactly when the regex matches and the digit count is 10 to 13; a regex failure shows the format message |
| BookingForm.PhonePatternShape | app/routes/booking-form.tsx:17 | a matching phone has 10 to 18 characters, and its digits start with 62 or 0 |
| BookingForm.LocalNumberAccepted | app/routes/booking-form.tsx:15-21 | 08123456789 passes both phone rules |
| BookingForm.RentalDays | app/routes/booking-form.tsx:46-47 | 0 without both dates; otherwise end − start + 1, the inclusive number of days for ordered dates and zero or less for reversed ones |
| BookingForm.TotalPrice | app/routes/booking-form.tsx:45-48 | a multiple of 360000: 0 without both dates, otherwise 360000 × (end − start + 1), which is zero or negative for reversed dates |
| BookingForm.FileChange | app/routes/booking-form.tsx:50-63 | an empty selection changes nothing; a file over 5 MiB only sets the file error; any other file becomes the chosen file and clears the file error |
| BookingForm.FileChangesKeepInv | app/routes/booking-form.tsx:50-63 | after any uploads, the chosen name is the initial label or the name of a file within the size limit |
| BookingForm.InitialFormState | app/routes/booking-form.tsx:30-43 | the fresh form shows "No file chosen", and submitting it at once reports exactly the short-name and phone-format messages |
| BookingForm.FirstFailing | app/routes/booking-form.tsx:65-99 | nothing fails exactly when every stage passes; otherwise a failing stage of the list every earlier stage of which passes |
| BookingForm.Submit | app/routes/booking-form.tsx:65-103 | submitting succeeds exactly when every stage passes, and then leaves no error; on a name/phone failure both fields carry their own rule's message, set together, and otherwise neither does; a date, file or terms error is exactly that stage's message |
| BookingForm.SubmitReportsFirstFailure | app/routes/booking-form.tsx:65-99 | the reported error belongs to the first failing stage in check order, and nothing from a later stage is reported |
| BookingConfirmation.PadStart | app/routes/booking-confirmation.tsx:53 | `padStart`: length max(n, original); the original at the end; fill characters before it |
| BookingConfirmation.MonthCode | app/routes/booking-confirmation.tsx:53 | two digits, the first 0 or 1, denoting the 1-based month |
| BookingConfirmation.YearCode | app/routes/booking-confirmation.tsx:54 | the year's last two characters: year mod 100 for years of two or more digits, one digit for years 0 to 9 |
| BookingConfirmation.BookingNumber | app/routes/booking-confirmation.tsx:51-57 | `M-` prefix, a dash before the suffix, the suffix is the id's last four characters upper-cased, and the length follows |
| BookingConfirmation.BookingNumberFields | app/routes/booking-confirmation.tsx:51-57 | positions 2-3 read back the year mod 100, positions 4-5 the month, then a dash and the upper-cased suffix |
| BookingConfirmation.RentalDays | app/routes/booking-confirmation.tsx:90-93 | the smallest number of whole days covering the distance between the instants (ceiling) |
| BookingConfirmation.RentalDaysSymmetric | app/routes/booking-confirmation.tsx:92 | the count does not depend on the order of the instants |
| BookingConfirmation.RentalDaysExact | app/routes/booking-confirmation.tsx:90-93 | instants n whole days apart count exactly n days |
| BookingConfirmation.WhatsappNumber | app/routes/booking-confirmation.tsx:95-96 | the contact's digits in order, each as often as in the contact, and nothing else; an all-digit contact is unchanged |
| BookingConfirmation.WhatsappNumberIdempotent | app/routes/booking-confirmation.tsx:96 | extracting from an extracted number changes nothing |
| Signup.RegisterIssues | app/routes/signup.tsx:43-57 | no issue exactly when all five rules hold; a mismatch is the last issue reported; every issue names one of the four fields |
| Signup.MismatchAlwaysReported | app/routes/signup.tsx:53-56 | differing passwords are always reported on confirmPassword, even alongside other failures |
| Signup.CheckMembership | app/routes/signup.tsx:43-57 | a rule contributes its issue exactly when it fails |
| Signup.NameIssue | app/routes/signup.tsx:46 | the name message is present exactly when the name is shorter than 3 |
| Signup.EmailIssue | app/routes/signup.tsx:47 | the email message is present exactly when the email check fails |
| Signup.PasswordIssue | app/routes/signup.tsx:48 | the password message is present exactly when the password is shorter than 8 |
| Signup.ConfirmIssue | app/routes/signup.tsx:49-51 | the confirmation-length message is present exactly when the confirmation is shorter than 8 |
| RentalPicker.ValidateTimes | app/components/vehicle-rental-picker.tsx:33-54 | valid without both dates or on different days; on the same day, invalid exactly when the start time is before the end time |
| RentalPicker.DefaultTimesRejected | app/components/vehicle-rental-picker.tsx:21-25 | the check as written would reject the initial 10:30:00 to 12:30:00 on today; it only runs after a time edit, so `timeError` starts empty |
| RentalPicker.EndTimeEditRejected | app/components/vehicle-rental-picker.tsx:165-167 | moving the end time from 12:30:00 to 13:00:00 on the opening dates records the error message |
| RentalPicker.ValidateTimesIntended | app/components/vehicle-rental-picker.tsx:33-54 | on the same day, valid exactly when the start time is before the end time; the error is empty exactly when valid |
| RentalPicker.IntendedVersusWritten | app/components/vehicle-rental-picker.tsx:44-50 | for distinct same-day times the two checks always disagree, and equal times are rejected by the intended check |
| RentalPicker.ChangeTimeFrom | app/components/vehicle-rental-picker.tsx:109-111 | the start time is stored, and the message is the check's verdict for the current dates |
| RentalPicker.ChangeTimeTo | app/components/vehicle-rental-picker.tsx:165-167 | the end time is stored, and the message is the check's verdict for the current dates |
| RentalPicker.PickFrom | app/components/vehicle-rental-picker.tsx:88-93 | the from-date is set, and a to-date before it is dragged along to it |
| RentalPicker.PickTo | app/components/vehicle-rental-picker.tsx:147-151 | the to-date is set and nothing else changes |
| RentalPicker.PickerStaysOrdered | app/components/vehicle-rental-picker.tsx:88-151 | under any sequence of allowed picks and time edits, from ≤ to stays true |
| RentalPicker.InitialOrdered | app/components/vehicle-rental-picker.tsx:21-22 | both dates start on today, so they are ordered |
| BottomNav.Render | app/components/bottom-nav.tsx:44-56 | nothing is rendered exactly when the modal is open or the path starts with a hidden prefix; otherwise one highlight flag per item |
| BottomNav.ModalHidesBar | app/components/bottom-nav.tsx:47 | an open modal hides the bar on every path |
| BottomNav.PrefixMatching | app/components/bottom-nav.tsx:34-46 | `/bookings` and `/results/42` are hidden; `/result-search` and `/` are not |
| BottomNav.HiddenBelow | app/components/bottom-nav.tsx:34-46 | any path that extends a hidden path is hidden too, because `shouldHide` tests prefixes |
| BottomNav.RootActiveOnlyAtRoot | app/components/bottom-nav.tsx:54-56 | Search is highlighted on `/` and nowhere else |
| BottomNav.AtMostOneActive | app/components/bottom-nav.tsx:13-17 | on any path, at most one of the three items is highlighted |

## Left out

- Browser side effects are not modelled: `localStorage` reads and writes, `document.body.style.overflow`, `navigate`, `onClose`, `alert` and `console.log`. The model keeps the values these would store or show.
- Geolocation (`navigator.geolocation`, `isLoadingGPS`, the 10 s timeout) is not modelled. A successful fix is the event `GeolocationFix(lat, lng)`, which selects `CurrentLocation(lat, lng)`; an unavailable or failed fix changes nothing the model tracks.
- Real `Date` semantics are not modelled: time zones, daylight-saving shifts, calendar month lengths, and `new Date(createdAt)` parsing, including invalid dates that give `NaN`. The caller supplies day numbers, weekdays, month lengths, years and 0-based months.
- DateRanges.DayCount: counts whole local days. It does not model the `Math.ceil` on milliseconds, which differs only across a daylight-saving change.
- Case mapping is ASCII only. `toLowerCase`/`toUpperCase` on non-ASCII letters are not modelled.
- Lengths are counted in characters, not UTF-16 code units. This affects the `min`/`max` checks on names, passwords and phones for characters outside the Basic Multilingual Plane.
- The sign-up email check is the validation library's. It is the parameter `isEmail`.
- Rupiah.FormatRupiah: natural amounts only. Negative, fractional and exponent-notation amounts are not modelled.
- Text.ToDecimal / Rupiah.FormatRupiah: agree with JavaScript's `toString()` only for amounts up to 2^53 − 1 (`Number.MAX_SAFE_INTEGER`). Above that a JavaScript number is a rounded double printed with its shortest round-trip digits, and from 10^21 in exponent form; the model renders the exact digits of an unbounded natural number.
- Text.StringLess: compares characters by code point. JavaScript's `<` compares UTF-16 code units; the two orders differ only between a character outside the Basic Multilingual Plane and one in U+E000–U+FFFF, which cannot occur in the `HH:MM:SS` times it is used on.
- SearchSession.Run: every event in a run happens on the same day and at the same instant (`today` and `now` are fixed). A modal left open across midnight is not modelled, and `SessionSafety`'s today ≤ start relies on this.
- SearchSession.Initial / SearchSession.InitialInv: only the first mount is modelled. The component stays mounted while the modal is closed, so reopening keeps the tab, query, month, location, range and selection state, and only reloads the history from storage. The model assumes the stored history is well-formed, as this code writes it. `JSON.parse` does not check that, so a history edited by hand is not covered.
- The modal's markup is not modelled: lists, icons and the vehicle grid. The same goes for the predefined location lists and the booking form's and confirmation page's markup.
- The booking form's `DatePicker`s are not connected to its `startDate`/`endDate`, so the form's dates are inputs.
- The from-calendar of the rental picker disables days before today. `PickerStaysOrdered` does not need that restriction, so it is not imposed.
- The rental picker's `onDateChange` callback and popover open/close flags are not modelled. Time strings are compared as strings, as the code does; the `HH:MM:SS` format of browser time inputs is not checked.
- Other repository files are not part of this model: `filter-modal.tsx`, `date-picker.tsx`, the payment, profile, dashboard and vehicle-detail routes, and the data-fetching loaders.

## Findings

| source | as written | input that shows it | evidently intended | confidence | as-written member | corrected member |
|---|---|---|---|---|---|---|
| app/components/vehicle-rental-picker.tsx:47 | on the same day, `timeFrom < timeTo` is reported as "End time must be after start time on the same day" | on the opening dates (today to today, 10:30:00 to 12:30:00), changing the end time to 13:00:00 records the message, although the end is after the start | reject when the end time is not after the start time (`timeFrom >= timeTo`) | high; not executed | RentalPicker.ValidateTimes, RentalPicker.EndTimeEditRejected | RentalPicker.ValidateTimesIntended, RentalPicker.IntendedVersusWritten |

The picker's time-change transitions (`ChangeTimeFrom`, `ChangeTimeTo`) keep the check as written, because the component calls it as written. They only record its message, and no other property of the model depends on that verdict. `ValidateTimesIntended` is the definition a fixed component would use.

=== FILE: booking_confirmation.dfy ===
/**
 Derived values on the booking confirmation page
 (app/routes/booking-confirmation.tsx): the booking number, the rental length
 and the rental company's WhatsApp number. The calendar fields of
 `new Date(createdAt)` (full year, 0-based month) are inputs; instants are
 integer milliseconds.
 */
module BookingConfirmation {
  import opened Seqs
  import opened Text

  /** `s.padStart(n, c)`: `c` repeated in front until the length reaches `n`. */
  function PadStart(s: string, n: nat, c: char): (r: string)
    ensures |r| == if |s| < n then n else |s|
    ensures r[|r| - |s|..] == s
    ensures forall i :: 0 <= i < |r| - |s| ==> r[i] == c
  {
    if |s| >= n then s else seq(n - |s|, _ => c) + s
  }

  /** `(getMonth() + 1).toString().padStart(2, "0")`. */
  function MonthCode(month: int): (mm: string)
    requires 0 <= month < 12
    ensures |mm| == 2 && AllDigits(mm)
    ensures mm[0] in "01"
    ensures ParseDecimal(mm) == month + 1
  {
    TwoDigitMonth(month + 1);
    PadStart(ToDecimal(month + 1), 2, '0')
  }

  lemma {:induction false} TwoDigitMonth(m: nat)
    requires 1 <= m <= 12
    ensures |PadStart(ToDecimal(m), 2, '0')| == 2
    ensures AllDigits(PadStart(ToDecimal(m), 2, '0'))
    ensures PadStart(ToDecimal(m), 2, '0')[0] in "01"
    ensures ParseDecimal(PadStart(ToDecimal(m), 2, '0')) == m
  {
    var mm := PadStart(ToDecimal(m), 2, '0');
    if m < 10 {
      OneDigitMonth(m);
      assert mm == ['0', DigitChar(m)];
      assert AllDigits(mm);
    } else {
      TwoDigitNumberMonth(m);
      assert mm == ['1', DigitChar(m - 10)];
    }
  }

  lemma {:induction false} TwoDigitNumberMonth(m: nat)
    requires 10 <= m <= 12
    ensures ToDecimal(m) == ['1', DigitChar(m - 10)]
    ensures PadStart(ToDecimal(m), 2, '0') == ToDecimal(m)
    ensures ParseDecimal(ToDecimal(m)) == m
  {
    assert ToDecimal(1) == ['1'];
    assert m / 10 == 1 && m % 10 == m - 10;
    assert ToDecimal(m) == ToDecimal(1) + [DigitChar(m - 10)];
    ParseToDecimal(m);
  }

  lemma {:induction false} OneDigitMonth(m: nat)
    requires 1 <= m < 10
    ensures PadStart(ToDecimal(m), 2, '0') == ['0', DigitChar(m)]
    ensures ParseDecimal(['0', DigitChar(m)]) == m
  {
    var c := DigitChar(m);
    assert ToDecimal(m) == [c];
    assert PadStart([c], 2, '0') == PadStart(['0', c], 2, '0');
    var mm := ['0', c];
    assert mm[..1] == ['0'];
    assert ['0'][..0] == [];
    assert ParseDecimal(['0']) == 0;
  }

  /** `getFullYear().toString().slice(-2)`: the last two characters of the year. */
  function YearCode(year: int): (yy: string)
    ensures 1 <= |yy| <= 2
    ensures year >= 10 ==> |yy| == 2 && AllDigits(yy) && ParseDecimal(yy) == year % 100
    ensures 0 <= year < 10 ==> yy == ToDecimal(year) && |yy| == 1
    ensures year < 0 ==> |yy| == 2
  {
    var yy := Last(IntToString(year), 2);
    if year >= 10 then LastTwoDigits(year); yy else yy
  }

  /** `generateBookingNumber`: `M-`, year code, month code, `-`, the id's last four characters upper-cased. */
  function BookingNumber(id: string, year: int, month: int): (r: string)
    requires 0 <= month < 12
    ensures StartsWith(r, "M-")
    ensures |r| == 5 + |YearCode(year)| + |Last(id, 4)|
    ensures r[|r| - |Last(id, 4)| - 1] == '-'
    ensures r[|r| - |Last(id, 4)|..] == Upper(Last(id, 4))
    ensures !(0 <= year < 10) ==> |r| == 7 + (if |id| < 4 then |id| else 4)
  {
    var head := "M-" + YearCode(year) + MonthCode(month);
    var suffix := Upper(Last(id, 4));
    DashJoin(head, suffix);
    assert head[..2] == "M-";
    head + "-" + suffix
  }

  /** The pieces of `head + "-" + suffix` sit where they were put. */
  lemma {:induction false} DashJoin(head: string, suffix: string)
    ensures var r := head + "-" + suffix;
      && |r| == |head| + 1 + |suffix|
      && r[..|head|] == head
      && r[|head|] == '-'
      && r[|head| + 1..] == suffix
      && (|head| >= 2 ==> r[..2] == head[..2])
  {
  }

  /**
   For a year of at least two digits the number reads back: characters 2-3
   give the year modulo 100, characters 4-5 the 1-based month.
   */
  lemma {:induction false} BookingNumberFields(id: string, year: int, month: int)
    requires 0 <= month < 12 && year >= 10
    ensures var r := BookingNumber(id, year, month);
      && |r| >= 7
      && r[2..4] == YearCode(year) && ParseDecimal(r[2..4]) == year % 100
      && r[4..6] == MonthCode(month) && ParseDecimal(r[4..6]) == month + 1
      && AllDigits(r[2..6])
      && r[6] == '-'
      && r[7..] == Upper(Last(id, 4))
  {
    var yy := YearCode(year);
    var mm := MonthCode(month);
    NumberLayout(yy, mm, Upper(Last(id, 4)));
    assert AllDigits(yy + mm) by {
      forall i | 0 <= i < 4 ensures IsDigit((yy + mm)[i]) {
        if i < 2 { assert (yy + mm)[i] == yy[i]; } else { assert (yy + mm)[i] == mm[i - 2]; }
      }
    }
  }

  /** Where the two-character codes and the suffix sit in the booking number. */
  lemma {:induction false} NumberLayout(yy: string, mm: string, u: string)
    requires |yy| == 2 && |mm| == 2
    ensures var r := "M-" + yy + mm + "-" + u;
      && r[2..4] == yy && r[4..6] == mm && r[2..6] == yy + mm
      && r[6] == '-' && r[7..] == u
  {
    var r := "M-" + yy + mm + "-" + u;
    assert r == "M-" + (yy + mm) + "-" + u;
  }

  const MillisPerDay: nat := 1000 * 60 * 60 * 24

  function Abs(x: int): nat {
    if x < 0 then -x else x
  }

  /** `Math.ceil(Math.abs(end - start) / msPerDay)`: whole days, any started day counted. */
  function RentalDays(startMs: int, endMs: int): (days: nat)
    ensures days * MillisPerDay >= Abs(endMs - startMs)
    ensures days >= 1 ==> (days - 1) * MillisPerDay < Abs(endMs - startMs)
    ensures days == 0 <==> startMs == endMs
  {
    (Abs(endMs - startMs) + MillisPerDay - 1) / MillisPerDay
  }

  /** The count does not depend on which instant comes first. */
  lemma {:induction false} RentalDaysSymmetric(startMs: int, endMs: int)
    ensures RentalDays(startMs, endMs) == RentalDays(endMs, startMs)
  {
  }

  /** Instants a whole number of days apart count exactly that many days. */
  lemma {:induction false} RentalDaysExact(startMs: int, n: nat)
    ensures RentalDays(startMs, startMs + n * MillisPerDay) == n
  {
    assert (n * MillisPerDay + MillisPerDay - 1) / MillisPerDay == n;
  }

  /** `contact.replace(/\D/g, "")`: the digits of the company's contact, in order. */
  function WhatsappNumber(contact: string): (r: string)
    ensures AllDigits(r)
    ensures Subsequence(r, contact)
    ensures forall i :: 0 <= i < |contact| && IsDigit(contact[i]) ==> contact[i] in r
    ensures forall c :: multiset(r)[c] == if IsDigit(c) then multiset(contact)[c] else 0
    ensures AllDigits(contact) ==> r == contact
  {
    KeepDigitsCounts(contact);
    if AllDigits(contact) then KeepDigitsOfDigits(contact); KeepDigits(contact)
    else KeepDigits(contact)
  }

  /** Extracting the number from an extracted number changes nothing. */
  lemma {:induction false} WhatsappNumberIdempotent(contact: string)
    ensures WhatsappNumber(WhatsappNumber(contact)) == WhatsappNumber(contact)
  {
    KeepDigitsIdempotent(contact);
  }
}

=== FILE: booking_form.dfy ===
/**
 The rental booking form (app/routes/booking-form.tsx): its name and phone
 rules, the price of the chosen period, the identity-photo upload and the
 staged submit check. The two date pickers are not wired to the form's
 dates, so the dates are inputs here.
 */
module BookingForm {
  import opened Options
  import opened Seqs
  import opened Text
  import opened DateRanges

  const NameTooShort := "Full name must be at least 3 characters"
  const NameTooLong := "Full name must not exceed 50 characters"
  const PhoneFormatMessage := "Invalid phone number format"
  const PhoneDigitsMessage := "WhatsApp number must be 10\U{2013}13 digits"
  const DateMessage := "Please select start & end date"
  const FileTooLarge := "File size must not exceed 5 MB"
  const FileMissing := "ID photo (KTP/SIM) is required"
  const TermsMessage := "You must agree to the terms & conditions"

  /** The file label before any upload; submit treats it as "no file". */
  const NoFileChosen := "No file chosen"
  const PricePerDay: nat := 360000
  const MaxFileSize: nat := 5 * 1024 * 1024

  /** The `fullName` rule: the first failing length check's message, if any. */
  function FullNameError(name: string): (e: Option<string>)
    ensures e.None? <==> 3 <= |name| <= 50
    ensures |name| < 3 ==> e == Some(NameTooShort)
    ensures |name| > 50 ==> e == Some(NameTooLong)
  {
    if |name| < 3 then Some(NameTooShort)
    else if |name| > 50 then Some(NameTooLong)
    else None
  }

  /** The character class `[\d\s-]`. */
  predicate PhoneBodyChar(c: char) {
    IsDigit(c) || IsSpace(c) || c == '-'
  }

  /** `[\d\s-]{9,15}` matched against the whole remainder. */
  predicate PhoneBody(t: string) {
    9 <= |t| <= 15 && forall i :: 0 <= i < |t| ==> PhoneBodyChar(t[i])
  }

  /** `^(\+62|62|0)[\d\s-]{9,15}$`: one of the three prefixes, then the body. */
  predicate PhonePattern(p: string) {
    || (StartsWith(p, "+62") && PhoneBody(p[3..]))
    || (StartsWith(p, "62") && PhoneBody(p[2..]))
    || (StartsWith(p, "0") && PhoneBody(p[1..]))
  }

  /** The refinement: 10 to 13 digits once every non-digit is removed. */
  predicate PhoneDigitCount(p: string) {
    10 <= |KeepDigits(p)| <= 13
  }

  /**
   The `phone` rule. A regex failure does not stop the refinement, but the
   message shown is the first one recorded, the regex's.
   */
  function PhoneError(p: string): (e: Option<string>)
    ensures e.None? <==> PhonePattern(p) && PhoneDigitCount(p)
    ensures !PhonePattern(p) ==> e == Some(PhoneFormatMessage)
    ensures PhonePattern(p) && !PhoneDigitCount(p) ==> e == Some(PhoneDigitsMessage)
  {
    if !PhonePattern(p) then Some(PhoneFormatMessage)
    else if !PhoneDigitCount(p) then Some(PhoneDigitsMessage)
    else None
  }

  /**
   A phone of the right format is 10 to 18 characters long and its digits
   begin with the country code 62 or the trunk prefix 0.
   */
  lemma {:induction false} PhonePatternShape(p: string)
    requires PhonePattern(p)
    ensures 10 <= |p| <= 18
    ensures StartsWith(KeepDigits(p), "62") || StartsWith(KeepDigits(p), "0")
  {
    if StartsWith(p, "+62") {
      KeepDigitsCountryCode();
      KeepDigitsOfPrefix(p, 3, "62");
    } else if StartsWith(p, "62") {
      KeepDigitsOfDigits("62");
      KeepDigitsOfPrefix(p, 2, "62");
    } else {
      KeepDigitsOfDigits("0");
      KeepDigitsOfPrefix(p, 1, "0");
    }
  }

  lemma KeepDigitsCountryCode()
    ensures KeepDigits("+62") == "62"
  {
    assert "+62" == "+" + "62";
    KeepDigitsAppend("+", "62");
    KeepDigitsOfDigits("62");
    KeepDigitsChar('+');
  }

  /** The digits of a prefix come first among the digits of the whole string. */
  lemma KeepDigitsOfPrefix(p: string, k: nat, d: string)
    requires k <= |p| && KeepDigits(p[..k]) == d
    ensures StartsWith(KeepDigits(p), d)
  {
    assert p == p[..k] + p[k..];
    KeepDigitsAppend(p[..k], p[k..]);
  }

  /** A plain local mobile number is accepted. */
  lemma {:induction false} LocalNumberAccepted()
    ensures PhoneError("08123456789") == None
  {
    var p := "08123456789";
    assert StartsWith(p, "0");
    assert PhoneBody(p[1..]);
    KeepDigitsOfDigits(p);
  }

  /**
   `days`: the inclusive day count when both dates are set, otherwise 0.
   Nothing orders the two dates: an end before the start gives zero or fewer.
   */
  function RentalDays(start: Option<int>, end: Option<int>): (days: int)
    ensures start.None? || end.None? ==> days == 0
    ensures start.Some? && end.Some? ==> days == end.value - start.value + 1
    ensures start.Some? && end.Some? && end.value < start.value ==> days <= 0
    ensures start.Some? && end.Some? && start.value <= end.value ==>
      days == |DaysBetween(start.value, end.value)| && days >= 1
  {
    DayCount(DateRange(start, end)).GetOr(0)
  }

  /** `totalPrice`: the daily rate for every day of the period. */
  function TotalPrice(start: Option<int>, end: Option<int>): (price: int)
    ensures price % PricePerDay == 0
    ensures start.None? || end.None? ==> price == 0
    ensures start.Some? && end.Some? ==> price == PricePerDay * (end.value - start.value + 1)
    ensures start.Some? && end.Some? && end.value < start.value ==> price <= 0
    ensures start.Some? && end.Some? && start.value <= end.value ==>
      price == PricePerDay * |DaysBetween(start.value, end.value)| && price >= PricePerDay
  {
    RentalDays(start, end) * PricePerDay
  }

  datatype Errors = Errors(
    fullName: Option<string>,
    phone: Option<string>,
    date: Option<string>,
    file: Option<string>,
    agreed: Option<string>)

  const NoErrors := Errors(None, None, None, None, None)

  datatype Form = Form(
    start: Option<int>,
    end: Option<int>,
    fullName: string,
    phone: string,
    fileName: string,
    agreed: bool,
    errors: Errors)

  const InitialForm := Form(None, None, "", "", NoFileChosen, false, NoErrors)

  /** The first file of the input's selection: its name and size in bytes. */
  datatype FileInfo = FileInfo(name: string, size: nat)

  /**
   `handleFileChange`: an oversized file only sets the file error; an
   acceptable one becomes the chosen file and clears the file error; an
   empty selection changes nothing.
   */
  function FileChange(f: Form, file: Option<FileInfo>): (g: Form)
    ensures file.None? ==> g == f
    ensures file.Some? && file.value.size > MaxFileSize ==>
      g == f.(errors := f.errors.(file := Some(FileTooLarge)))
    ensures file.Some? && file.value.size <= MaxFileSize ==>
      g == f.(fileName := file.value.name, errors := f.errors.(file := None))
  {
    match file
    case None => f
    case Some(info) =>
      if info.size > MaxFileSize then f.(errors := f.errors.(file := Some(FileTooLarge)))
      else f.(fileName := info.name, errors := f.errors.(file := None))
  }

  /** The chosen file name is the initial label or the name of a file within the size limit. */
  ghost predicate FileInv(f: Form, uploads: set<FileInfo>) {
    f.fileName == NoFileChosen ||
    exists info :: info in uploads && info.size <= MaxFileSize && info.name == f.fileName
  }

  /** Whatever is uploaded, an oversized file never becomes the chosen file. */
  lemma {:induction false} FileChangesKeepInv(f: Form, files: seq<Option<FileInfo>>, uploads: set<FileInfo>)
    requires FileInv(f, uploads)
    requires forall i :: 0 <= i < |files| && files[i].Some? ==> files[i].value in uploads
    ensures FileInv(FileChangeAll(f, files), uploads)
    decreases |files|
  {
    if |files| > 0 {
      var g := FileChange(f, files[0]);
      if files[0].Some? && files[0].value.size <= MaxFileSize {
        assert files[0].value in uploads;
      }
      FileChangesKeepInv(g, files[1..], uploads);
    }
  }

  function FileChangeAll(f: Form, files: seq<Option<FileInfo>>): Form
    decreases |files|
  {
    if |files| == 0 then f else FileChangeAll(FileChange(f, files[0]), files[1..])
  }

  /**
   The freshly opened form: its file label satisfies the invariant before any
   upload, and submitting it at once reports the short name and the phone
   format and nothing else.
   */
  lemma {:induction false} InitialFormState()
    ensures FileInv(InitialForm, {})
    ensures Submit(InitialForm) ==
      SubmitResult(NoErrors.(fullName := Some(NameTooShort), phone := Some(PhoneFormatMessage)), false)
  {
  }

  /** The stages of `handleSubmit`, in the order it checks them. */
  datatype Stage = NameAndPhone | Dates | File | Terms

  const StageOrder: seq<Stage> := [NameAndPhone, Dates, File, Terms]

  predicate Passes(f: Form, stage: Stage) {
    match stage
    case NameAndPhone => FullNameError(f.fullName).None? && PhoneError(f.phone).None?
    case Dates => f.start.Some? && f.end.Some?
    case File => f.fileName != NoFileChosen
    case Terms => f.agreed
  }

  /** The first stage in `stages` that `f` fails. */
  function FirstFailing(f: Form, stages: seq<Stage>): (r: Option<Stage>)
    ensures r.None? <==> forall i :: 0 <= i < |stages| ==> Passes(f, stages[i])
    ensures r.Some? ==> r.value in stages && !Passes(f, r.value)
    ensures r.Some? ==>
      exists k :: (0 <= k < |stages| && stages[k] == r.value && forall j :: 0 <= j < k ==> Passes(f, stages[j]))
  {
    if |stages| == 0 then None
    else if !Passes(f, stages[0]) then Some(stages[0])
    else
      var r := FirstFailing(f, stages[1..]);
      if r.Some? then
        var k :| 0 <= k < |stages[1..]| && stages[1..][k] == r.value
          && forall j :: 0 <= j < k ==> Passes(f, stages[1..][j]);
        assert forall j :: 0 <= j < k + 1 ==> Passes(f, stages[j]) by {
          forall j | 0 <= j < k + 1 ensures Passes(f, stages[j]) {
            if j > 0 { assert stages[j] == stages[1..][j - 1]; }
          }
        }
        assert stages[k + 1] == r.value;
        r
      else r
  }

  datatype SubmitResult = SubmitResult(errors: Errors, submitted: bool)

  /**
   `handleSubmit`: clear every error, then report the first failing stage
   and stop; name and phone are checked together and may both be reported.
   */
  function Submit(f: Form): (r: SubmitResult)
    ensures r.submitted <==> forall st :: Passes(f, st)
    ensures r.submitted ==> r.errors == NoErrors
    ensures r.errors.fullName == (if Passes(f, NameAndPhone) then None else FullNameError(f.fullName))
    ensures r.errors.phone == (if Passes(f, NameAndPhone) then None else PhoneError(f.phone))
    ensures r.errors.date.Some? ==> r.errors.date == Some(DateMessage)
    ensures r.errors.file.Some? ==> r.errors.file == Some(FileMissing)
    ensures r.errors.agreed.Some? ==> r.errors.agreed == Some(TermsMessage)
  {
    if !Passes(f, NameAndPhone) then
      SubmitResult(NoErrors.(fullName := FullNameError(f.fullName), phone := PhoneError(f.phone)), false)
    else if !Passes(f, Dates) then SubmitResult(NoErrors.(date := Some(DateMessage)), false)
    else if !Passes(f, File) then SubmitResult(NoErrors.(file := Some(FileMissing)), false)
    else if !Passes(f, Terms) then SubmitResult(NoErrors.(agreed := Some(TermsMessage)), false)
    else
      PassesEveryStage(f);
      SubmitResult(NoErrors, true)
  }

  lemma {:induction false} PassesEveryStage(f: Form)
    requires Passes(f, NameAndPhone) && Passes(f, Dates) && Passes(f, File) && Passes(f, Terms)
    ensures forall st :: Passes(f, st)
  {
    forall st ensures Passes(f, st) {
      match st
      case NameAndPhone =>
      case Dates =>
      case File =>
      case Terms =>
    }
  }

  /** The stage whose message an error record carries, if any. */
  function ReportedStage(e: Errors): Option<Stage> {
    if e.fullName.Some? || e.phone.Some? then Some(NameAndPhone)
    else if e.date.Some? then Some(Dates)
    else if e.file.Some? then Some(File)
    else if e.agreed.Some? then Some(Terms)
    else None
  }

  /**
   Submit reports exactly the first failing stage in check order and
   nothing from any later stage; it succeeds only when no stage fails.
   */
  lemma {:induction false} SubmitReportsFirstFailure(f: Form)
    ensures ReportedStage(Submit(f).errors) == FirstFailing(f, StageOrder)
    ensures Submit(f).submitted <==> FirstFailing(f, StageOrder).None?
    ensures !Submit(f).submitted ==>
      var e := Submit(f).errors;
      (e.date.Some? ==> e.fullName.None? && e.phone.None? && e.file.None? && e.agreed.None?)
      && (e.file.Some? ==> e.date.None? && e.agreed.None?)
      && (e.fullName.Some? || e.phone.Some? ==> e.date.None? && e.file.None? && e.agreed.None?)
  {
    var rest1 := StageOrder[1..];
    var rest2 := rest1[1..];
    var rest3 := rest2[1..];
    assert rest1 == [Dates, File, Terms] && rest2 == [File, Terms] && rest3 == [Terms];
    assert rest3[1..] == [];
    if !Passes(f, NameAndPhone) {
      assert FirstFailing(f, StageOrder) == Some(NameAndPhone);
    } else if !Passes(f, Dates) {
      assert FirstFailing(f, StageOrder) == FirstFailing(f, rest1) == Some(Dates);
    } else if !Passes(f, File) {
      assert FirstFailing(f, StageOrder) == FirstFailing(f, rest1) == FirstFailing(f, rest2) == Some(File);
    } else if !Passes(f, Terms) {
      assert FirstFailing(f, StageOrder) == FirstFailing(f, rest1) == FirstFailing(f, rest2)
        == FirstFailing(f, rest3) == Some(Terms);
    } else {
      assert FirstFailing(f, StageOrder) == FirstFailing(f, rest1) == FirstFailing(f, rest2)
        == FirstFailing(f, rest3) == FirstFailing(f, []) == None;
    }
  }
}

=== FILE: bottom_nav.dfy ===
/**
 The bottom navigation bar (app/components/bottom-nav.tsx): where it is
 hidden and which of its three items is highlighted.
 */
module BottomNav {
  import opened Options
  import opened Text

  /** Path prefixes on which the bar is not rendered. */
  const HideOnPaths: seq<string> :=
    ["/login", "/register", "/booking", "/confirmation", "/vehicle-detail", "/results"]

  datatype NavItem = NavItem(title: string, href: string)

  const NavItems: seq<NavItem> :=
    [NavItem("Search", "/"), NavItem("Sign In", "/signin"), NavItem("Sign Up", "/signup")]

  /** `shouldHide`: the path starts with one of the hidden prefixes. */
  predicate ShouldHide(path: string) {
    exists i :: 0 <= i < |HideOnPaths| && StartsWith(path, HideOnPaths[i])
  }

  /** `isActive`: the root item only on the root itself, any other item on its path and everything below. */
  predicate IsActive(path: string, href: string) {
    path == href || (href != "/" && StartsWith(path, href))
  }

  /** What the bar renders: nothing, or one highlight flag per item. */
  function Render(path: string, modalOpen: bool): (r: Option<seq<bool>>)
    ensures r.None? <==> modalOpen || exists i :: 0 <= i < |HideOnPaths| && StartsWith(path, HideOnPaths[i])
    ensures r.Some? ==>
      && |r.value| == |NavItems|
      && forall i :: 0 <= i < |NavItems| ==> r.value[i] == IsActive(path, NavItems[i].href)
  {
    if ShouldHide(path) || modalOpen then None
    else Some(seq(|NavItems|, i requires 0 <= i < |NavItems| => IsActive(path, NavItems[i].href)))
  }

  /** The open search modal hides the bar on every path. */
  lemma {:induction false} ModalHidesBar(path: string)
    ensures Render(path, true) == None
  {
  }

  /** Matching is by prefix: `/bookings` is hidden, `/result-search` is not. */
  lemma {:induction false} PrefixMatching()
    ensures ShouldHide("/bookings")
    ensures ShouldHide("/results/42")
    ensures !ShouldHide("/result-search")
    ensures !ShouldHide("/")
  {
    assert StartsWith("/bookings", HideOnPaths[2]);
    assert StartsWith("/results/42", HideOnPaths[5]);
    forall i | 0 <= i < |HideOnPaths| ensures !StartsWith("/result-search", HideOnPaths[i]) {
      assert HideOnPaths[i][1] != "/result-search"[1] || HideOnPaths[i][7] != "/result-search"[7];
    }
  }

  /** Hiding is inherited: every path below a hidden path is hidden too. */
  lemma {:induction false} HiddenBelow(path: string, rest: string)
    requires ShouldHide(path)
    ensures ShouldHide(path + rest)
  {
    var i :| 0 <= i < |HideOnPaths| && StartsWith(path, HideOnPaths[i]);
    var p := HideOnPaths[i];
    assert (path + rest)[..|p|] == path[..|p|];
    assert StartsWith(path + rest, p);
  }

  /** The root item is highlighted on the root path and nowhere else. */
  lemma {:induction false} RootActiveOnlyAtRoot(path: string)
    ensures IsActive(path, "/") <==> path == "/"
  {
  }

  /** For any path, at most one of the three items is highlighted. */
  lemma {:induction false} AtMostOneActive(path: string)
    ensures forall i, j :: 0 <= i < j < |NavItems| ==>
      !(IsActive(path, NavItems[i].href) && IsActive(path, NavItems[j].href))
  {
    if StartsWith(path, "/signin") {
      assert path[5] == 'i';
    }
    if IsActive(path, "/") {
      assert path == "/";
      assert !StartsWith(path, "/signin") && !StartsWith(path, "/signup");
    }
  }
}

=== FILE: date_range.dfy ===
/**
 Date arithmetic of the search modal (app/components/unified-search-modal.tsx).
 A date is a day number: whole days since 1970-01-01 in local time, so that
 `startOfDay`, `isBefore` and `toDateString` comparisons become integer
 comparisons. Day 0 was a Thursday.
 */
module DateRanges {
  import opened Options

  /** The rental range; either endpoint may be unset. */
  datatype DateRange = DateRange(start: Option<int>, end: Option<int>)

  const NoRange := DateRange(None, None)

  /** `Date.getDay()`: 0 for Sunday through 6 for Saturday. */
  function Weekday(day: int): (w: nat)
    ensures w < 7
  {
    (day + 4) % 7
  }

  /** The days from `a` to `b` inclusive. */
  function DaysBetween(a: int, b: int): (days: set<int>)
    ensures forall d :: d in days <==> a <= d <= b
    decreases b - a
  {
    if b < a then {} else DaysBetween(a, b - 1) + {b}
  }

  lemma {:induction false} DaysBetweenSize(a: int, b: int)
    ensures |DaysBetween(a, b)| == if a <= b then b - a + 1 else 0
    decreases b - a
  {
    if a <= b {
      DaysBetweenSize(a, b - 1);
      assert b !in DaysBetween(a, b - 1);
    }
  }

  /**
   `getDayCount`: nothing until both endpoints are set; then the ceiling of
   the whole-day difference plus one, which for midnight dates is the number
   of calendar days the range covers.
   */
  function DayCount(r: DateRange): (count: Option<int>)
    ensures count.None? <==> r.start.None? || r.end.None?
    ensures count.Some? && r.start.value <= r.end.value ==>
      count.value == |DaysBetween(r.start.value, r.end.value)|
    ensures count.Some? && r.start.value == r.end.value ==> count.value == 1
  {
    if r.start.None? || r.end.None? then None
    else
      DaysBetweenSize(r.start.value, r.end.value);
      Some(r.end.value - r.start.value + 1)
  }

  /** How a calendar cell is drawn, in the priority the markup checks them. */
  datatype CellKind = Past | Selected | InRange | Plain

  /** `isSelected`: the cell is one of the set endpoints (same calendar day). */
  predicate IsSelected(r: DateRange, day: int) {
    (r.start.Some? && day == r.start.value) || (r.end.Some? && day == r.end.value)
  }

  /** `isInRange`: both endpoints set and the cell lies between them inclusive. */
  predicate IsInRange(r: DateRange, day: int) {
    r.start.Some? && r.end.Some? && r.start.value <= day <= r.end.value
  }

  function ClassifyCell(r: DateRange, today: int, day: int): (k: CellKind)
    ensures k == Past <==> day < today
    ensures k == Selected <==> today <= day && IsSelected(r, day)
    ensures k == InRange <==> today <= day && !IsSelected(r, day) && IsInRange(r, day)
    ensures k == Plain <==> today <= day && !IsSelected(r, day) && !IsInRange(r, day)
  {
    if day < today then Past
    else if IsSelected(r, day) then Selected
    else if IsInRange(r, day) then InRange
    else Plain
  }

  /** For a committed range on or after today, the endpoints are highlighted and the days strictly between are shaded. */
  lemma {:induction false} CommittedRangeCells(r: DateRange, today: int, day: int)
    requires r.start.Some? && r.end.Some? && today <= r.start.value <= r.end.value
    ensures r.start.value < day < r.end.value ==> ClassifyCell(r, today, day) == InRange
    ensures day == r.start.value || day == r.end.value ==> ClassifyCell(r, today, day) == Selected
    ensures today <= day && (day < r.start.value || r.end.value < day) ==> ClassifyCell(r, today, day) == Plain
  {
  }

  /**
   `getDaysInMonth`: one blank per weekday before the 1st (weeks start on
   Sunday), then every day of the month in order; no trailing blanks.
   */
  method DaysInMonth(firstDay: int, monthLength: nat) returns (cells: seq<Option<int>>)
    ensures |cells| == Weekday(firstDay) + monthLength
    ensures forall i :: 0 <= i < Weekday(firstDay) ==> cells[i] == None
    ensures forall i :: Weekday(firstDay) <= i < |cells| ==> cells[i] == Some(firstDay + (i - Weekday(firstDay)))
  {
    var blanks := Weekday(firstDay);
    cells := [];
    var i := 0;
    while i < blanks
      invariant 0 <= i <= blanks
      invariant |cells| == i
      invariant forall j :: 0 <= j < i ==> cells[j] == None
    {
      cells := cells + [None];
      i := i + 1;
    }
    var day := 1;
    while day <= monthLength
      invariant 1 <= day <= monthLength + 1
      invariant |cells| == blanks + day - 1
      invariant forall j :: 0 <= j < blanks ==> cells[j] == None
      invariant forall j :: blanks <= j < |cells| ==> cells[j] == Some(firstDay + (j - blanks))
    {
      cells := cells + [Some(firstDay + day - 1)];
      day := day + 1;
    }
  }

  /** Every day lands in the column of its weekday under the Su..Sa header. */
  lemma {:induction false} DayColumn(firstDay: int, i: nat)
    ensures (Weekday(firstDay) + i) % 7 == Weekday(firstDay + i)
  {
  }

  /** The month shown by the calendar; `month` is 0-based as in `Date.getMonth()`. */
  datatype MonthCursor = MonthCursor(year: int, month: int) {
    predicate Valid() {
      0 <= month < 12
    }
  }

  /** `new Date(year, month + 1)`: the month overflows into January of the next year. */
  function NextMonth(c: MonthCursor): (n: MonthCursor)
    requires c.Valid()
    ensures n.Valid()
    ensures n.year * 12 + n.month == c.year * 12 + c.month + 1
  {
    if c.month == 11 then MonthCursor(c.year + 1, 0) else MonthCursor(c.year, c.month + 1)
  }

  /** `new Date(year, month - 1)`: the month underflows into December of the previous year. */
  function PrevMonth(c: MonthCursor): (p: MonthCursor)
    requires c.Valid()
    ensures p.Valid()
    ensures p.year * 12 + p.month == c.year * 12 + c.month - 1
  {
    if c.month == 0 then MonthCursor(c.year - 1, 11) else MonthCursor(c.year, c.month - 1)
  }

  /** The two month buttons undo each other. */
  lemma {:induction false} MonthNavigationInverse(c: MonthCursor)
    requires c.Valid()
    ensures PrevMonth(NextMonth(c)) == c
    ensures NextMonth(PrevMonth(c)) == c
  {
  }
}

=== FILE: location_search.dfy ===
/**
 The location tab of the search modal (app/components/unified-search-modal.tsx):
 the recent-locations history and the search-as-you-type filter.
 */
module LocationSearch {
  import opened Options
  import opened Seqs
  import opened Text

  /** A place to rent from (app/lib/types.ts). */
  datatype Location = Location(name: string, lat: real, lng: real)

  /** One remembered selection; `timestamp` is `Date.now()` at the time it was added. */
  datatype HistoryEntry = HistoryEntry(location: Location, dates: Option<string>, timestamp: int)

  const MaxHistory: nat := 5

  /** The pseudo-location offered by the "Anywhere" button. */
  const Anywhere := Location("Anywhere", 0.0, 0.0)

  /** The location produced by a successful geolocation fix. */
  function CurrentLocation(lat: real, lng: real): Location {
    Location("Current Location", lat, lng)
  }

  function EntryName(h: HistoryEntry): string {
    h.location.name
  }

  function NameDiffers(name: string): HistoryEntry -> bool {
    (h: HistoryEntry) => h.location.name != name
  }

  /** At most five entries, no two for the same location name. */
  ghost predicate WellFormedHistory(history: seq<HistoryEntry>) {
    |history| <= MaxHistory && DistinctBy(history, EntryName)
  }

  /**
   `addLocationToHistory`: the new entry goes first, every older entry with
   the same name is dropped, and the list is cut to five. The cut keeps the
   most recent entries: the survivors are the other-named entries of a
   prefix of the old list.
   */
  function AddToHistory(prev: seq<HistoryEntry>, loc: Location, dates: Option<string>, now: int)
    : (r: seq<HistoryEntry>)
    ensures 1 <= |r| <= MaxHistory
    ensures r[0] == HistoryEntry(loc, dates, now)
    ensures forall i :: 1 <= i < |r| ==> r[i].location.name != loc.name
    ensures Subsequence(r[1..], prev)
    ensures exists k :: 0 <= k <= |prev| && r[1..] == Filter(prev[..k], NameDiffers(loc.name))
    ensures |r| < MaxHistory ==>
      forall i :: 0 <= i < |prev| && prev[i].location.name != loc.name ==> prev[i] in r
    ensures |r| == if |Filter(prev, NameDiffers(loc.name))| < MaxHistory
      then |Filter(prev, NameDiffers(loc.name))| + 1 else MaxHistory
    ensures |Filter(prev, NameDiffers(loc.name))| < MaxHistory ==>
      r[1..] == Filter(prev, NameDiffers(loc.name))
  {
    var kept := Filter(prev, NameDiffers(loc.name));
    FilterIsSubsequence(prev, NameDiffers(loc.name));
    FilterMembers(prev, NameDiffers(loc.name));
    TakeFilterIsFilterOfPrefix(prev, NameDiffers(loc.name), MaxHistory - 1);
    SubsequencePrefix(kept, prev, |Take(kept, MaxHistory - 1)|);
    var r := [HistoryEntry(loc, dates, now)] + Take(kept, MaxHistory - 1);
    assert r[1..] == Take(kept, MaxHistory - 1);
    r
  }

  /** Adding to a well-formed history keeps it well-formed. */
  lemma {:induction false} AddToHistoryWellFormed(prev: seq<HistoryEntry>, loc: Location, dates: Option<string>, now: int)
    requires WellFormedHistory(prev)
    ensures WellFormedHistory(AddToHistory(prev, loc, dates, now))
  {
    var r := AddToHistory(prev, loc, dates, now);
    SubsequenceDistinct(r[1..], prev, EntryName);
    forall i, j | 0 <= i < j < |r| ensures EntryName(r[i]) != EntryName(r[j]) {
      if i > 0 {
        assert r[i] == r[1..][i - 1] && r[j] == r[1..][j - 1];
      }
    }
  }

  /** The filter test: the lower-cased name contains the lower-cased query. */
  predicate Matches(loc: Location, query: string) {
    Contains(Lower(loc.name), Lower(query))
  }

  function QueryMatcher(query: string): Location -> bool {
    (loc: Location) => Matches(loc, query)
  }

  /** `filterLocations`: the matching entries, in their original order. */
  function FilterLocations(locations: seq<Location>, query: string): (r: seq<Location>)
    ensures forall i :: 0 <= i < |r| ==> r[i] in locations && Matches(r[i], query)
    ensures forall i :: 0 <= i < |locations| && Matches(locations[i], query) ==> locations[i] in r
    ensures Subsequence(r, locations)
  {
    FilterIsSubsequence(locations, QueryMatcher(query));
    FilterMembers(locations, QueryMatcher(query));
    Filter(locations, QueryMatcher(query))
  }

  /** Each matching location occurs in the result as often as in the list, and no other location occurs. */
  lemma {:induction false} FilterLocationsCounts(locations: seq<Location>, query: string)
    ensures forall x ::
      multiset(FilterLocations(locations, query))[x] == if Matches(x, query) then multiset(locations)[x] else 0
  {
    FilterMultiset(locations, QueryMatcher(query));
  }

  /** Filtering a list made of two parts filters each part: the order of the list is kept. */
  lemma {:induction false} FilterLocationsAppend(a: seq<Location>, b: seq<Location>, query: string)
    ensures FilterLocations(a + b, query) == FilterLocations(a, query) + FilterLocations(b, query)
  {
    FilterAppend(a, b, QueryMatcher(query));
  }

  /** An empty query keeps every entry. */
  lemma {:induction false} FilterLocationsEmptyQuery(locations: seq<Location>)
    ensures FilterLocations(locations, "") == locations
  {
    forall i | 0 <= i < |locations| ensures QueryMatcher("")(locations[i]) {
      assert StartsWith(Lower(locations[i].name), Lower(""));
    }
    FilterKeepsAll(locations, QueryMatcher(""));
  }

  /** A match is a case-insensitive occurrence of the query somewhere in the name. */
  lemma {:induction false} MatchesOccurrence(loc: Location, query: string)
    ensures Matches(loc, query) <==> exists i :: OccursAt(Lower(loc.name), Lower(query), i)
  {
    ContainsOccurs(Lower(loc.name), Lower(query));
  }

  /** Typing "ubud" finds "Ubud, Bali". */
  lemma {:induction false} UbudMatches()
    ensures Matches(Location("Ubud, Bali", -8.5069, 115.2624), "ubud")
  {
    var name := Lower("Ubud, Bali");
    assert name[..4] == "ubud";
  }
}

=== FILE: options.dfy ===
/** The optional value used wherever the application holds `null` or `undefined`. */
module Options {

  datatype Option<+T> = None | Some(value: T) {

    /** Returns the wrapped value, or `default` when there is none. */
    function GetOr(default: T): T {
      match this
      case Some(v) => v
      case None => default
    }
  }
}

=== FILE: rental_picker.dfy ===
/**
 The vehicle rental picker (app/components/vehicle-rental-picker.tsx): a
 from-date and a to-date, each with a time of day, and the same-day time
 check. Dates are day numbers; times are the input's `HH:MM:SS` strings,
 compared as strings.
 */
module RentalPicker {
  import opened Options
  import opened Text

  const TimeOrderMessage := "End time must be after start time on the same day"

  /** `timeError` starts as `null` (`None`) and is cleared to the empty string. */
  datatype Picker = Picker(from: Option<int>, to: Option<int>, timeFrom: string, timeTo: string, timeError: Option<string>)

  function Initial(today: int): Picker {
    Picker(Some(today), Some(today), "10:30:00", "12:30:00", None)
  }

  datatype Validation = Validation(ok: bool, error: string)

  /**
   `validateTimes` as written: with both dates on the same day it rejects a
   start time that is before the end time.
   */
  function ValidateTimes(from: Option<int>, to: Option<int>, timeFrom: string, timeTo: string): (v: Validation)
    ensures from.None? || to.None? ==> v == Validation(true, "")
    ensures from.Some? && to.Some? && from.value != to.value ==> v == Validation(true, "")
    ensures from.Some? && to.Some? && from.value == to.value && StringLess(timeFrom, timeTo) ==>
      v == Validation(false, TimeOrderMessage)
    ensures from.Some? && to.Some? && from.value == to.value && !StringLess(timeFrom, timeTo) ==>
      v == Validation(true, "")
  {
    if from.None? || to.None? then Validation(true, "")
    else if from.value == to.value && StringLess(timeFrom, timeTo) then Validation(false, TimeOrderMessage)
    else Validation(true, "")
  }

  /**
   The check as written would reject the initial times, 10:30 to 12:30 on the
   same day. It runs only on a time edit, so the initial state shows no error.
   */
  lemma {:induction false} DefaultTimesRejected(today: int)
    ensures var p := Initial(today);
      ValidateTimes(p.from, p.to, p.timeFrom, p.timeTo) == Validation(false, TimeOrderMessage)
  {
    var a: string := "10:30:00";
    var b: string := "12:30:00";
    assert a[0] == b[0] && a[1] != b[1];
    assert a[1..][0] < b[1..][0];
  }

  /**
   The check runs only on a time edit. Moving the end time later on the
   opening day, from 12:30 to 13:00 after 10:30, records the error message.
   */
  lemma {:induction false} EndTimeEditRejected(today: int)
    ensures ChangeTimeTo(Initial(today), "13:00:00").timeError == Some(TimeOrderMessage)
  {
    var a: string := "10:30:00";
    var b: string := "13:00:00";
    assert a[0] == b[0] && a[1] != b[1];
    assert a[1..][0] < b[1..][0];
  }

  /** The evidently intended check: on the same day the end time must come strictly after the start time. */
  function ValidateTimesIntended(from: Option<int>, to: Option<int>, timeFrom: string, timeTo: string): (v: Validation)
    ensures v.ok <==> from.None? || to.None? || from.value != to.value || StringLess(timeFrom, timeTo)
    ensures v.ok <==> v.error == ""
  {
    if from.Some? && to.Some? && from.value == to.value && !StringLess(timeFrom, timeTo) then
      Validation(false, TimeOrderMessage)
    else Validation(true, "")
  }

  /** The intended check accepts exactly the same-day periods the written one rejects, apart from equal times. */
  lemma {:induction false} IntendedVersusWritten(day: int, timeFrom: string, timeTo: string)
    ensures timeFrom != timeTo ==>
      ValidateTimesIntended(Some(day), Some(day), timeFrom, timeTo).ok
        != ValidateTimes(Some(day), Some(day), timeFrom, timeTo).ok
    ensures !ValidateTimesIntended(Some(day), Some(day), timeFrom, timeFrom).ok
  {
    StringLessTrichotomy(timeFrom, timeTo);
    StringLessTrichotomy(timeFrom, timeFrom);
  }

  /** The time inputs: store the new time and record the check's message for the current dates. */
  function ChangeTimeFrom(p: Picker, t: string): (q: Picker)
    ensures q.timeFrom == t && q.from == p.from && q.to == p.to && q.timeTo == p.timeTo
    ensures q.timeError == Some(ValidateTimes(p.from, p.to, t, p.timeTo).error)
  {
    p.(timeFrom := t, timeError := Some(ValidateTimes(p.from, p.to, t, p.timeTo).error))
  }

  function ChangeTimeTo(p: Picker, t: string): (q: Picker)
    ensures q.timeTo == t && q.from == p.from && q.to == p.to && q.timeFrom == p.timeFrom
    ensures q.timeError == Some(ValidateTimes(p.from, p.to, p.timeFrom, t).error)
  {
    p.(timeTo := t, timeError := Some(ValidateTimes(p.from, p.to, p.timeFrom, t).error))
  }

  /** The from-calendar's `onSelect`: a from-date after the to-date drags the to-date along. */
  function PickFrom(p: Picker, date: Option<int>): (q: Picker)
    ensures q.from == date
    ensures p.to.Some? && date.Some? && date.value > p.to.value ==> q.to == date
    ensures !(p.to.Some? && date.Some? && date.value > p.to.value) ==> q.to == p.to
    ensures q.timeFrom == p.timeFrom && q.timeTo == p.timeTo && q.timeError == p.timeError
  {
    var q := p.(from := date);
    if p.to.Some? && date.Some? && date.value > p.to.value then q.(to := date) else q
  }

  /** The to-calendar disables every day before the from-date. */
  predicate ToSelectable(p: Picker, day: int) {
    p.from.None? || p.from.value <= day
  }

  /** The to-calendar's `onSelect`. */
  function PickTo(p: Picker, date: Option<int>): (q: Picker)
    ensures q == p.(to := date)
  {
    p.(to := date)
  }

  datatype Event =
    | FromPicked(fromDate: Option<int>)
    | ToPicked(toDate: Option<int>)
    | TimeFromChanged(fromTime: string)
    | TimeToChanged(toTime: string)

  /** Events the two calendars can emit: a to-pick is never a disabled day. */
  predicate Allowed(p: Picker, e: Event) {
    e.ToPicked? && e.toDate.Some? ==> ToSelectable(p, e.toDate.value)
  }

  function Apply(p: Picker, e: Event): Picker {
    match e
    case FromPicked(d) => PickFrom(p, d)
    case ToPicked(d) => PickTo(p, d)
    case TimeFromChanged(t) => ChangeTimeFrom(p, t)
    case TimeToChanged(t) => ChangeTimeTo(p, t)
  }

  /** Both dates set implies from <= to. */
  predicate Ordered(p: Picker) {
    p.from.Some? && p.to.Some? ==> p.from.value <= p.to.value
  }

  function ApplyAll(p: Picker, events: seq<Event>): Picker
    decreases |events|
  {
    if |events| == 0 then p else ApplyAll(Apply(p, events[0]), events[1..])
  }

  /** Every sequence of events the calendars allow, one state at a time. */
  ghost predicate AllAllowed(p: Picker, events: seq<Event>)
    decreases |events|
  {
    |events| == 0 || (Allowed(p, events[0]) && AllAllowed(Apply(p, events[0]), events[1..]))
  }

  /** The clamp on from-picks and the disabled days on the to-calendar keep from <= to. */
  lemma {:induction false} PickerStaysOrdered(p: Picker, events: seq<Event>)
    requires Ordered(p) && AllAllowed(p, events)
    ensures Ordered(ApplyAll(p, events))
    decreases |events|
  {
    if |events| > 0 {
      assert Ordered(Apply(p, events[0]));
      PickerStaysOrdered(Apply(p, events[0]), events[1..]);
    }
  }

  lemma {:induction false} InitialOrdered(today: int)
    ensures Ordered(Initial(today))
  {
  }
}

=== FILE: rupiah.dfy ===
/**
 `formatRupiah` (app/lib/utils/format-rupiah.ts): the amount's decimal digits
 with a `.` inserted wherever the regular expression `\B(?=(\d{3})+(?!\d))`
 matches, behind the prefix `Rp `. Amounts are natural numbers here.
 */
module Rupiah {
  import opened Seqs
  import opened Text
  import opened Options

  /**
   Whether the thousands regex matches at position `i` of an all-digit string:
   not at either end (`\B` between two digits) and followed by a positive
   multiple of three digits up to the end of the run.
   */
  predicate DotBefore(s: string, i: int) {
    0 < i && RunOfTriples(|s| - i)
  }

  /** `(\d{3})+`: a positive number of three-digit groups spans `n` digits. */
  predicate RunOfTriples(n: int)
    decreases n
  {
    n >= 3 && (n == 3 || RunOfTriples(n - 3))
  }

  /** The global replacement, scanning left to right from position `i`. */
  function InsertDotsFrom(s: string, i: nat): string
    requires i <= |s|
    decreases |s| - i
  {
    if i == |s| then []
    else (if DotBefore(s, i) then "." else "") + [s[i]] + InsertDotsFrom(s, i + 1)
  }

  function InsertDots(s: string): string {
    InsertDotsFrom(s, 0)
  }

  function FormatRupiah(amount: nat): (r: string)
    ensures StartsWith(r, "Rp ")
    ensures RemoveDots(r[3..]) == ToDecimal(amount)
  {
    var digits := ToDecimal(amount);
    RegexIsGrouping(digits);
    GroupedRemoveDots(digits);
    "Rp " + InsertDots(digits)
  }

  /** Reads a formatted amount back: strip the prefix and the separators, then parse. */
  function ParseRupiah(r: string): Option<nat> {
    if StartsWith(r, "Rp ") && AllDigits(RemoveDots(r[3..])) then
      Some(ParseDecimal(RemoveDots(r[3..])))
    else None
  }

  /** Formatting loses nothing: reading the text back recovers the amount. */
  lemma {:induction false} FormatRupiahRoundTrip(amount: nat)
    ensures ParseRupiah(FormatRupiah(amount)) == Some(amount)
  {
    ParseToDecimal(amount);
  }

  predicate IsDot(c: char) {
    c == '.'
  }

  predicate NotDot(c: char) {
    c != '.'
  }

  function RemoveDots(t: string): (r: string)
    ensures forall i :: 0 <= i < |r| ==> r[i] != '.'
  {
    Filter(t, NotDot)
  }

  function DotCount(t: string): nat {
    |Filter(t, IsDot)|
  }

  /** `t.split(".")`: the maximal dot-free pieces of `t`, in order. */
  function SplitDots(t: string): (groups: seq<string>)
    ensures |groups| >= 1
  {
    if |t| == 0 then [""]
    else
      var rest := SplitDots(t[1..]);
      if t[0] == '.' then [""] + rest else [[t[0]] + rest[0]] + rest[1..]
  }

  /** Thousands grouping from the right: the last three digits after a dot, the rest grouped likewise. */
  function Grouped(s: string): string
    decreases |s|
  {
    if |s| <= 3 then s else Grouped(s[..|s| - 3]) + "." + s[|s| - 3..]
  }

  /** With at most three digits the regex never matches. */
  lemma {:induction false} InsertDotsShort(s: string, i: nat)
    requires |s| <= 3 && i <= |s|
    ensures InsertDotsFrom(s, i) == s[i..]
    decreases |s| - i
  {
    if i < |s| {
      InsertDotsShort(s, i + 1);
      assert s[i..] == [s[i]] + s[i + 1..];
    }
  }

  /** Up to the last three digits the regex matches where it matches on the prefix; then once more. */
  lemma {:induction false} InsertDotsSplit(s: string, i: nat)
    requires |s| >= 4 && i <= |s| - 3
    ensures InsertDotsFrom(s, i) == InsertDotsFrom(s[..|s| - 3], i) + "." + s[|s| - 3..]
    decreases |s| - i
  {
    var k := |s| - 3;
    if i == k {
      InsertDotsLastGroup(s);
    } else {
      InsertDotsSplit(s, i + 1);
      DotBeforePrefix(s, i);
      InsertDotsSplitStep(s, s[..k], s[k..], i);
    }
  }

  /** One step of the split: when `s` and `t` agree at `i`, including the mark, the split carries over from `i + 1` to `i`. */
  lemma InsertDotsSplitStep(s: string, t: string, tail: string, i: nat)
    requires i < |t| && i < |s| && s[i] == t[i] && DotBefore(s, i) == DotBefore(t, i)
    requires InsertDotsFrom(s, i + 1) == InsertDotsFrom(t, i + 1) + "." + tail
    ensures InsertDotsFrom(s, i) == InsertDotsFrom(t, i) + "." + tail
  {
    var head := (if DotBefore(s, i) then "." else "") + [s[i]];
    var rest := InsertDotsFrom(t, i + 1);
    assert InsertDotsFrom(s, i) == head + (rest + "." + tail);
    assert InsertDotsFrom(t, i) == head + rest;
  }

  /** The last three digits: one dot before them, none among them. */
  lemma {:induction false} InsertDotsLastGroup(s: string)
    requires |s| >= 4
    ensures InsertDotsFrom(s, |s| - 3) == "." + s[|s| - 3..]
  {
    var k := |s| - 3;
    assert DotBefore(s, k);
    InsertDotsTail(s, k + 1);
    assert s[k..] == [s[k]] + s[k + 1..];
  }

  /** Among the last two digits the regex never matches. */
  lemma {:induction false} InsertDotsTail(s: string, i: nat)
    requires |s| - 2 <= i <= |s|
    ensures InsertDotsFrom(s, i) == s[i..]
    decreases |s| - i
  {
    if i < |s| {
      assert !RunOfTriples(|s| - i);
      InsertDotsTail(s, i + 1);
      assert s[i..] == [s[i]] + s[i + 1..];
    }
  }

  /** Dropping the last three digits leaves the match positions before them unchanged. */
  lemma {:induction false} DotBeforePrefix(s: string, i: nat)
    requires |s| >= 4 && i < |s| - 3
    ensures DotBefore(s, i) == DotBefore(s[..|s| - 3], i)
  {
  }

  /** The regex replacement is exactly right-to-left grouping in threes. */
  lemma {:induction false} RegexIsGrouping(s: string)
    ensures InsertDots(s) == Grouped(s)
    decreases |s|
  {
    if |s| <= 3 {
      InsertDotsShort(s, 0);
    } else {
      InsertDotsSplit(s, 0);
      RegexIsGrouping(s[..|s| - 3]);
    }
  }

  /** Removing the separators from a grouped digit string restores the digits. */
  lemma {:induction false} GroupedRemoveDots(s: string)
    requires AllDigits(s)
    ensures RemoveDots(Grouped(s)) == s
    decreases |s|
  {
    if |s| <= 3 {
      FilterKeepsAll(s, NotDot);
    } else {
      var k := |s| - 3;
      GroupedRemoveDots(s[..k]);
      RemoveDotsJoin(Grouped(s[..k]), s[k..]);
      assert s[..k] + s[k..] == s;
    }
  }

  /** Removing the separators around one inserted dot. */
  lemma {:induction false} RemoveDotsJoin(g: string, tail: string)
    requires AllDigits(tail)
    ensures RemoveDots(g + "." + tail) == RemoveDots(g) + tail
  {
    assert g + "." + tail == g + ("." + tail);
    FilterAppend(g, "." + tail, NotDot);
    RemoveDotsLeadingDot(tail);
    FilterKeepsAll(tail, NotDot);
  }

  lemma RemoveDotsLeadingDot(tail: string)
    ensures RemoveDots("." + tail) == RemoveDots(tail)
  {
    assert ("." + tail)[1..] == tail;
  }

  /** A grouped string of `n >= 1` digits holds exactly `(n - 1) / 3` separators. */
  lemma {:induction false} GroupedDotCount(s: string)
    requires |s| >= 1 && AllDigits(s)
    ensures DotCount(Grouped(s)) == (|s| - 1) / 3
    decreases |s|
  {
    if |s| <= 3 {
      FilterNone(s);
    } else {
      var k := |s| - 3;
      GroupedDotCount(s[..k]);
      FilterAppend(Grouped(s[..k]) + ".", s[k..], IsDot);
      FilterAppend(Grouped(s[..k]), ".", IsDot);
      FilterNone(s[k..]);
      assert Filter(".", IsDot) == ".";
    }
  }

  lemma {:induction false} FilterNone(s: string)
    requires AllDigits(s)
    ensures Filter(s, IsDot) == []
  {
    if |s| > 0 {
      FilterNone(s[1..]);
    }
  }

  /** Splitting at a separator splits each side independently. */
  lemma {:induction false} SplitAround(x: string, y: string)
    ensures SplitDots(x + "." + y) == SplitDots(x) + SplitDots(y)
  {
    if |x| == 0 {
      assert x + "." + y == "." + y;
      assert ("." + y)[1..] == y;
    } else {
      assert (x + "." + y)[1..] == x[1..] + "." + y;
      SplitAround(x[1..], y);
    }
  }

  /** A dot-free string is a single piece. */
  lemma {:induction false} SplitNoDot(y: string)
    requires forall i :: 0 <= i < |y| ==> y[i] != '.'
    ensures SplitDots(y) == [y]
  {
    if |y| > 0 {
      SplitNoDot(y[1..]);
      assert [y[0]] + y[1..] == y;
    }
  }

  /** The pieces of a grouped string: the first has one to three digits, every later one exactly three. */
  lemma {:induction false} GroupedPieces(s: string)
    requires |s| >= 1 && AllDigits(s)
    ensures var groups := SplitDots(Grouped(s));
      && |groups| == (|s| - 1) / 3 + 1
      && 1 <= |groups[0]| <= 3
      && (forall j :: 1 <= j < |groups| ==> |groups[j]| == 3)
      && (forall j :: 0 <= j < |groups| ==> AllDigits(groups[j]))
    decreases |s|
  {
    if |s| <= 3 {
      SplitNoDot(s);
    } else {
      var k := |s| - 3;
      GroupedPieces(s[..k]);
      SplitAround(Grouped(s[..k]), s[k..]);
      SplitNoDot(s[k..]);
      PiecesAppend(SplitDots(Grouped(s[..k])), s[k..]);
    }
  }

  /** Appending a three-digit piece keeps the shape of the pieces. */
  lemma PiecesAppend(groups: seq<string>, y: string)
    requires |groups| >= 1 && 1 <= |groups[0]| <= 3
    requires forall j :: 1 <= j < |groups| ==> |groups[j]| == 3
    requires forall j :: 0 <= j < |groups| ==> AllDigits(groups[j])
    requires |y| == 3 && AllDigits(y)
    ensures var all := groups + [y];
      && 1 <= |all[0]| <= 3
      && (forall j :: 1 <= j < |all| ==> |all[j]| == 3)
      && (forall j :: 0 <= j < |all| ==> AllDigits(all[j]))
  {
  }

  /** Every piece between the separators of a formatted amount is a run of exactly three digits, except the first. */
  lemma {:induction false} FormatRupiahGroups(amount: nat)
    ensures var groups := SplitDots(FormatRupiah(amount)[3..]);
      && 1 <= |groups[0]| <= 3
      && (forall j :: 1 <= j < |groups| ==> |groups[j]| == 3)
      && (forall j :: 0 <= j < |groups| ==> AllDigits(groups[j]))
  {
    var digits := ToDecimal(amount);
    RegexIsGrouping(digits);
    GroupedPieces(digits);
    assert FormatRupiah(amount)[3..] == Grouped(digits);
  }

  /** The number of separators is (digit count - 1) div 3; amounts below 1000 have none. */
  lemma {:induction false} FormatRupiahDots(amount: nat)
    ensures DotCount(FormatRupiah(amount)[3..]) == (|ToDecimal(amount)| - 1) / 3
    ensures DotCount(FormatRupiah(amount)[3..]) == 0 <==> amount < 1000
  {
    var digits := ToDecimal(amount);
    RegexIsGrouping(digits);
    GroupedDotCount(digits);
    assert FormatRupiah(amount)[3..] == Grouped(digits);
    DecimalLength(amount, 3);
  }
}

=== FILE: search_session.dfy ===
/**
 The state machine of the unified search modal
 (app/components/unified-search-modal.tsx): a session moves from the
 location tab to the dates tab to the vehicle tab, collects a location, a
 committed date range and a vehicle category, and hands them to the results
 page once all are present. `today` is the start of the current day and
 `now` the current time, both supplied by the caller.
 */
module SearchSession {
  import opened Options
  import opened DateRanges
  import opened LocationSearch

  datatype Tab = LocationTab | DatesTab | VehicleTab

  /** `VehicleCategory` (app/lib/types.ts). */
  datatype Category = Motorcycle | Car

  datatype Session = Session(
    tab: Tab,
    query: string,
    selectingEnd: bool,
    month: MonthCursor,
    location: Option<Location>,
    history: seq<HistoryEntry>,
    range: DateRange,
    category: Category)

  /**
   The modal at its first mount; `month` is the current month and `history`
   what storage held. The component stays mounted while closed, so a later
   reopening continues from the state it was left in.
   */
  function Initial(month: MonthCursor, history: seq<HistoryEntry>): Session {
    Session(LocationTab, "", false, month, None, history, NoRange, Motorcycle)
  }

  /** `handleSelectLocation`: remember the location, make it current and move on to the dates tab. */
  function SelectLocation(s: Session, loc: Location, now: int): (t: Session)
    ensures t.location == Some(loc) && t.tab == DatesTab
    ensures 1 <= |t.history| <= MaxHistory && t.history[0].location == loc
    ensures t.history == AddToHistory(s.history, loc, None, now)
    ensures t.range == s.range && t.selectingEnd == s.selectingEnd && t.category == s.category
    ensures t.month == s.month && t.query == s.query
  {
    s.(history := AddToHistory(s.history, loc, None, now), location := Some(loc), tab := DatesTab)
  }

  /** `handleDateClick`: the two-click range protocol. */
  function DateClick(s: Session, today: int, day: int): (t: Session)
    ensures day < today ==> t == s
    ensures today <= day && !s.selectingEnd ==>
      t == s.(range := DateRange(Some(day), None), selectingEnd := true)
    ensures today <= day && s.selectingEnd && s.range.start.Some? && day < s.range.start.value ==>
      t == s.(range := DateRange(Some(day), None))
    ensures today <= day && s.selectingEnd && !(s.range.start.Some? && day < s.range.start.value) ==>
      t == s.(range := DateRange(s.range.start, Some(day)), selectingEnd := false, tab := VehicleTab)
  {
    if day < today then s
    else if !s.selectingEnd then s.(range := DateRange(Some(day), None), selectingEnd := true)
    else if s.range.start.Some? && day < s.range.start.value then s.(range := DateRange(Some(day), None))
    else s.(range := DateRange(s.range.start, Some(day)), selectingEnd := false, tab := VehicleTab)
  }

  /** The shortcut buttons: Today, 3 days, 1 week, 2 weeks. */
  const QuickOptions: seq<int> := [1, 3, 7, 14]

  /** `handleQuickSelect`: a range of `days` days starting today, committed at once. */
  function QuickSelect(s: Session, today: int, days: int): (t: Session)
    ensures t.range.start == Some(today) && t.range.end == Some(today + days - 1)
    ensures !t.selectingEnd && t.tab == VehicleTab
    ensures DayCount(t.range) == Some(days)
    ensures t.location == s.location && t.category == s.category && t.history == s.history
    ensures t.month == s.month && t.query == s.query
  {
    s.(range := DateRange(Some(today), Some(today + days - 1)), selectingEnd := false, tab := VehicleTab)
  }

  /** `canSearch`: a location is chosen and both endpoints are set. */
  predicate CanSearch(s: Session) {
    s.location.Some? && s.range.start.Some? && s.range.end.Some?
  }

  /** What `handleSearch` stores for the results page. */
  datatype SearchData = SearchData(location: Location, start: int, end: int, category: Category)

  /** `handleSearch`: the search data when ready, otherwise nothing happens. */
  function Search(s: Session): (r: Option<SearchData>)
    ensures r.Some? <==> s.location.Some? && s.range.start.Some? && s.range.end.Some?
    ensures r.Some? ==>
      && r.value.location == s.location.value && r.value.category == s.category
      && r.value.start == s.range.start.value && r.value.end == s.range.end.value
  {
    if CanSearch(s) then
      Some(SearchData(s.location.value, s.range.start.value, s.range.end.value, s.category))
    else None
  }

  /**
   What the results page receives: whenever a search is possible in a
   session that keeps the invariant, its dates are ordered and not in the past.
   */
  lemma {:induction false} SearchOrdered(s: Session, today: int)
    requires Inv(s, today)
    ensures Search(s).Some? ==> today <= Search(s).value.start <= Search(s).value.end
    ensures Search(s).Some? ==> DayCount(s.range) == Some(Search(s).value.end - Search(s).value.start + 1)
  {
  }

  /** Everything the user can do in the modal. */
  datatype Event =
    | TypeQuery(text: string)
    | PickLocation(loc: Location)
    | ChooseAnywhere
    | GeolocationFix(lat: real, lng: real)
    | ShowTab(target: Tab)
    | ClickDay(day: int)
    | Quick(days: int)
    | PickCategory(category: Category)
    | ShowPreviousMonth
    | ShowNextMonth

  /** The events the markup can produce: quick-select only with the offered day counts. */
  predicate Offered(e: Event) {
    e.Quick? ==> e.days in QuickOptions
  }

  function Step(s: Session, today: int, now: int, e: Event): (t: Session)
    requires s.month.Valid()
    ensures t.month.Valid()
  {
    match e
    case TypeQuery(text) => s.(query := text)
    case PickLocation(loc) => SelectLocation(s, loc, now)
    case ChooseAnywhere => SelectLocation(s, Anywhere, now)
    case GeolocationFix(lat, lng) => SelectLocation(s, CurrentLocation(lat, lng), now)
    case ShowTab(target) => s.(tab := target)
    case ClickDay(day) => DateClick(s, today, day)
    case Quick(days) => QuickSelect(s, today, days)
    case PickCategory(c) => s.(category := c)
    case ShowPreviousMonth => s.(month := PrevMonth(s.month))
    case ShowNextMonth => s.(month := NextMonth(s.month))
  }

  /**
   The session invariant: the range is empty, in progress (start only, while
   selecting the end), or committed with today <= start <= end; the shown
   month is a real month; the history is well-formed.
   */
  ghost predicate Inv(s: Session, today: int) {
    && s.month.Valid()
    && WellFormedHistory(s.history)
    && (s.selectingEnd ==> s.range.start.Some? && s.range.end.None?)
    && (s.range.start.Some? && s.range.end.None? ==> s.selectingEnd)
    && (s.range.end.Some? ==> s.range.start.Some?)
    && (s.range.start.Some? ==> today <= s.range.start.value)
    && (s.range.start.Some? && s.range.end.Some? ==> s.range.start.value <= s.range.end.value)
  }

  lemma {:induction false} InitialInv(month: MonthCursor, history: seq<HistoryEntry>, today: int)
    requires month.Valid() && WellFormedHistory(history)
    ensures Inv(Initial(month, history), today)
  {
  }

  lemma {:induction false} StepInv(s: Session, today: int, now: int, e: Event)
    requires Inv(s, today) && Offered(e)
    ensures Inv(Step(s, today, now, e), today)
  {
    match e {
      case PickLocation(loc) => AddToHistoryWellFormed(s.history, loc, None, now);
      case ChooseAnywhere => AddToHistoryWellFormed(s.history, Anywhere, None, now);
      case GeolocationFix(lat, lng) => AddToHistoryWellFormed(s.history, CurrentLocation(lat, lng), None, now);
      case _ =>
    }
  }

  /**
   The two shortcut buttons select like a picked location: "Anywhere" and,
   once the position is known, "Current Location" at its coordinates; each
   heads the history and opens the dates tab.
   */
  lemma {:induction false} ShortcutsSelect(s: Session, today: int, now: int, lat: real, lng: real)
    requires s.month.Valid()
    ensures var t := Step(s, today, now, ChooseAnywhere);
      && t.location == Some(Location("Anywhere", 0.0, 0.0)) && t.tab == DatesTab
      && t.history[0] == HistoryEntry(Anywhere, None, now)
    ensures var t := Step(s, today, now, GeolocationFix(lat, lng));
      && t.location == Some(Location("Current Location", lat, lng)) && t.tab == DatesTab
      && t.history[0] == HistoryEntry(CurrentLocation(lat, lng), None, now)
  {
  }

  /** The session after a sequence of events, all on the same day. */
  function Run(s: Session, today: int, now: int, events: seq<Event>): Session
    requires s.month.Valid()
    decreases |events|
  {
    if |events| == 0 then s else Run(Step(s, today, now, events[0]), today, now, events[1..])
  }

  /** Any sequence of offered events keeps the invariant. */
  lemma {:induction false} RunInv(s: Session, today: int, now: int, events: seq<Event>)
    requires Inv(s, today)
    requires forall i :: 0 <= i < |events| ==> Offered(events[i])
    ensures Inv(Run(s, today, now, events), today)
    decreases |events|
  {
    if |events| > 0 {
      StepInv(s, today, now, events[0]);
      RunInv(Step(s, today, now, events[0]), today, now, events[1..]);
    }
  }

  /**
   From the first mount, whatever the user does: selecting the end
   means a start is set and no end; a committed range satisfies
   today <= start <= end and counts at least one day; the history holds at
   most five distinct names.
   */
  lemma {:induction false} SessionSafety(month: MonthCursor, history: seq<HistoryEntry>, today: int, now: int, events: seq<Event>)
    requires month.Valid() && WellFormedHistory(history)
    requires forall i :: 0 <= i < |events| ==> Offered(events[i])
    ensures var s := Run(Initial(month, history), today, now, events);
      && (s.selectingEnd ==> s.range.start.Some? && s.range.end.None?)
      && (s.range.start.Some? && s.range.end.Some? ==>
            today <= s.range.start.value <= s.range.end.value && DayCount(s.range).value >= 1)
      && |s.history| <= MaxHistory
  {
    RunInv(Initial(month, history), today, now, events);
  }

  /**
   Open the modal, pick Surabaya Gubeng Station, click day 10 and then day 14, search: the
   dates tab follows the location, the vehicle tab follows the second click,
   the range counts five days and the search carries the default category.
   */
  lemma {:induction false} SurabayaScenario(month: MonthCursor, today: int, now: int)
    requires month.Valid() && today <= 10
    ensures var surabaya := Location("Surabaya Gubeng Station", -7.2653, 112.7519);
      var s1 := SelectLocation(Initial(month, []), surabaya, now);
      var s2 := DateClick(s1, today, 10);
      var s3 := DateClick(s2, today, 14);
      && s1.tab == DatesTab
      && s2.tab == DatesTab && s2.selectingEnd
      && s3.tab == VehicleTab && !s3.selectingEnd
      && DayCount(s3.range) == Some(5)
      && Search(s3) == Some(SearchData(surabaya, 10, 14, Motorcycle))
  {
  }
}

=== FILE: seqs.dfy ===
/**
 Order-preserving selection over sequences: the `Array.prototype.filter`
 calls of the application (location filtering, history de-duplication) and
 the `replace(/\D/g, "")` digit extraction are all instances of `Filter`.
 */
module Seqs {

  /** The elements of `s` that satisfy `p`, in their original order. */
  function Filter<T>(s: seq<T>, p: T -> bool): (r: seq<T>)
    ensures |r| <= |s|
    ensures forall i :: 0 <= i < |r| ==> p(r[i])
  {
    if |s| == 0 then []
    else (if p(s[0]) then [s[0]] else []) + Filter(s[1..], p)
  }

  /** `a` can be obtained from `b` by deleting elements, keeping the order of the rest. */
  ghost predicate Subsequence<T>(a: seq<T>, b: seq<T>)
  {
    if |a| == 0 then true
    else if |b| == 0 then false
    else if a[0] == b[0] then Subsequence(a[1..], b[1..])
    else Subsequence(a, b[1..])
  }

  /** Exactly the elements of `s` that satisfy `p` survive filtering. */
  lemma {:induction false} FilterMembers<T>(s: seq<T>, p: T -> bool)
    ensures forall i :: 0 <= i < |Filter(s, p)| ==> Filter(s, p)[i] in s
    ensures forall i :: 0 <= i < |s| && p(s[i]) ==> s[i] in Filter(s, p)
  {
    if |s| > 0 {
      FilterMembers(s[1..], p);
      var r := Filter(s, p);
      forall i | 0 <= i < |r| ensures r[i] in s {
        if p(s[0]) && i == 0 {
          assert r[0] == s[0];
        } else {
          var j := if p(s[0]) then i - 1 else i;
          assert r[i] == Filter(s[1..], p)[j];
        }
      }
      forall i | 0 <= i < |s| && p(s[i]) ensures s[i] in r {
        if i > 0 {
          assert s[i] == s[1..][i - 1];
        }
      }
    }
  }

  /** Filtering keeps every occurrence of an element that satisfies `p` and no occurrence of any other. */
  lemma {:induction false} FilterMultiset<T>(s: seq<T>, p: T -> bool)
    ensures forall x :: multiset(Filter(s, p))[x] == if p(x) then multiset(s)[x] else 0
  {
    if |s| > 0 {
      FilterMultiset(s[1..], p);
      assert s == [s[0]] + s[1..];
      assert multiset(s) == multiset([s[0]]) + multiset(s[1..]);
      var head := if p(s[0]) then [s[0]] else [];
      assert multiset(Filter(s, p)) == multiset(head) + multiset(Filter(s[1..], p));
    }
  }

  /** The first `n` survivors of a filter are exactly the survivors of some prefix. */
  lemma {:induction false} TakeFilterIsFilterOfPrefix<T>(s: seq<T>, p: T -> bool, n: nat)
    ensures exists k :: 0 <= k <= |s| && Take(Filter(s, p), n) == Filter(s[..k], p)
  {
    if |s| == 0 || n == 0 {
      assert Take(Filter(s, p), n) == Filter(s[..0], p);
    } else {
      var m := if p(s[0]) then n - 1 else n;
      TakeFilterIsFilterOfPrefix(s[1..], p, m);
      var k :| 0 <= k <= |s[1..]| && Take(Filter(s[1..], p), m) == Filter(s[1..][..k], p);
      assert s[..k + 1][1..] == s[1..][..k];
      assert Filter(s[..k + 1], p) == (if p(s[0]) then [s[0]] else []) + Filter(s[1..][..k], p);
      if p(s[0]) {
        assert Filter(s, p) == [s[0]] + Filter(s[1..], p);
        assert Take(Filter(s, p), n) == [s[0]] + Take(Filter(s[1..], p), n - 1);
      }
      assert Take(Filter(s, p), n) == Filter(s[..k + 1], p);
    }
  }

  /** Filtering a concatenation filters each part: `Filter` is determined element by element. */
  lemma {:induction false} FilterAppend<T>(a: seq<T>, b: seq<T>, p: T -> bool)
    ensures Filter(a + b, p) == Filter(a, p) + Filter(b, p)
  {
    if |a| == 0 {
      assert a + b == b;
    } else {
      assert (a + b)[1..] == a[1..] + b;
      FilterAppend(a[1..], b, p);
    }
  }

  /** Filtering keeps the surviving elements in their original relative order. */
  lemma {:induction false} FilterIsSubsequence<T>(s: seq<T>, p: T -> bool)
    ensures Subsequence(Filter(s, p), s)
  {
    if |s| > 0 {
      FilterIsSubsequence(s[1..], p);
      if p(s[0]) {
        assert Filter(s, p) == [s[0]] + Filter(s[1..], p);
        assert Filter(s, p)[1..] == Filter(s[1..], p);
      } else {
        assert Filter(s, p) == Filter(s[1..], p);
        SubsequenceOfTail(Filter(s[1..], p), s);
      }
    }
  }

  /** A subsequence of the tail of `b` is a subsequence of `b`. */
  lemma {:induction false} SubsequenceOfTail<T>(a: seq<T>, b: seq<T>)
    requires |b| > 0 && Subsequence(a, b[1..])
    ensures Subsequence(a, b)
    decreases |a| + |b|
  {
    if |a| > 0 && a[0] == b[0] {
      // Dropping the first element of `a` keeps it a subsequence of the tail.
      SubsequenceDropHead(a, b[1..]);
    }
  }

  /** Removing the head of a subsequence keeps it a subsequence. */
  lemma {:induction false} SubsequenceDropHead<T>(a: seq<T>, b: seq<T>)
    requires |a| > 0 && Subsequence(a, b)
    ensures Subsequence(a[1..], b)
    decreases |a| + |b|
  {
    assert |b| > 0;
    if a[0] == b[0] {
      if |a[1..]| > 0 {
        SubsequenceOfTail(a[1..], b);
      }
    } else {
      SubsequenceDropHead(a, b[1..]);
      SubsequenceOfTail(a[1..], b);
    }
  }

  /** When every element already satisfies `p`, filtering changes nothing. */
  lemma {:induction false} FilterKeepsAll<T>(s: seq<T>, p: T -> bool)
    requires forall i :: 0 <= i < |s| ==> p(s[i])
    ensures Filter(s, p) == s
  {
    if |s| > 0 {
      FilterKeepsAll(s[1..], p);
    }
  }

  /** Filtering twice by the same predicate is the same as filtering once. */
  lemma {:induction false} FilterIdempotent<T>(s: seq<T>, p: T -> bool)
    ensures Filter(Filter(s, p), p) == Filter(s, p)
  {
    FilterKeepsAll(Filter(s, p), p);
  }

  /** A prefix of length at most `n`: JavaScript's `slice(0, n)`. */
  function Take<T>(s: seq<T>, n: nat): (r: seq<T>)
    ensures |r| == if |s| < n then |s| else n
    ensures forall i :: 0 <= i < |r| ==> r[i] == s[i]
  {
    if |s| <= n then s else s[..n]
  }

  /** A suffix of length at most `n`: JavaScript's `slice(-n)` for `n > 0`. */
  function Last<T>(s: seq<T>, n: nat): (r: seq<T>)
    ensures |r| == if |s| < n then |s| else n
    ensures forall i :: 0 <= i < |r| ==> r[i] == s[|s| - |r| + i]
  {
    if |s| <= n then s else s[|s| - n..]
  }

  /** Every element of a subsequence is an element of the sequence. */
  lemma {:induction false} SubsequenceMembers<T>(a: seq<T>, b: seq<T>)
    requires Subsequence(a, b)
    ensures forall i :: 0 <= i < |a| ==> a[i] in b
    decreases |b|
  {
    if |a| > 0 {
      if a[0] == b[0] {
        SubsequenceMembers(a[1..], b[1..]);
        forall i | 1 <= i < |a| ensures a[i] in b {
          assert a[1..][i - 1] == a[i];
        }
      } else {
        SubsequenceMembers(a, b[1..]);
      }
    }
  }

  /** A prefix of a subsequence is still a subsequence. */
  lemma {:induction false} SubsequencePrefix<T>(a: seq<T>, b: seq<T>, n: nat)
    requires Subsequence(a, b) && n <= |a|
    ensures Subsequence(a[..n], b)
    decreases |b|
  {
    if n > 0 {
      if a[0] == b[0] {
        SubsequencePrefix(a[1..], b[1..], n - 1);
        assert a[..n][1..] == a[1..][..n - 1];
      } else {
        SubsequencePrefix(a, b[1..], n);
      }
    }
  }

  /** No two elements of `s` share a key. */
  ghost predicate DistinctBy<T, K>(s: seq<T>, key: T -> K) {
    forall i, j :: 0 <= i < j < |s| ==> key(s[i]) != key(s[j])
  }

  /** Deleting elements cannot create a repeated key. */
  lemma {:induction false} SubsequenceDistinct<T, K>(a: seq<T>, b: seq<T>, key: T -> K)
    requires Subsequence(a, b) && DistinctBy(b, key)
    ensures DistinctBy(a, key)
    decreases |b|
  {
    if |a| > 0 {
      if a[0] == b[0] {
        SubsequenceDistinct(a[1..], b[1..], key);
        SubsequenceMembers(a[1..], b[1..]);
        forall i, j | 0 <= i < j < |a| ensures key(a[i]) != key(a[j]) {
          assert a[j] == a[1..][j - 1];
          if i == 0 {
            var m :| 0 <= m < |b[1..]| && b[1..][m] == a[j];
            assert b[m + 1] == a[j];
          } else {
            assert a[i] == a[1..][i - 1];
          }
        }
      } else {
        SubsequenceDistinct(a, b[1..], key);
      }
    }
  }
}

=== FILE: signup.dfy ===
/**
 The sign-up validation schema `registerValidation` (app/routes/signup.tsx).
 Every field rule is checked and the password-confirmation rule runs as
 well, so all failures are reported together, in field order. The email
 format check belongs to the validation library and is a parameter.
 */
module Signup {

  datatype RegisterForm = RegisterForm(fullName: string, email: string, password: string, confirmPassword: string)

  /** One validation failure: the field it is reported on and its message. */
  datatype Issue = Issue(path: string, message: string)

  const NameRequired := "Full name is required"
  const InvalidEmail := "Invalid Email Format"
  const PasswordTooShort := "Password must be at least 8 characters"
  const ConfirmTooShort := "Confirm password must be at least 8 characters"
  const ConfirmMismatch := "Confirmation password is incorrect"

  function Check(ok: bool, issue: Issue): seq<Issue> {
    if ok then [] else [issue]
  }

  /** The issues `safeParse` reports, in the order the schema declares its rules. */
  function RegisterIssues(form: RegisterForm, isEmail: string -> bool): (issues: seq<Issue>)
    ensures issues == [] <==>
      && |form.fullName| >= 3
      && isEmail(form.email)
      && |form.password| >= 8
      && |form.confirmPassword| >= 8
      && form.password == form.confirmPassword
    ensures form.password != form.confirmPassword ==>
      issues[|issues| - 1] == Issue("confirmPassword", ConfirmMismatch)
    ensures |form.fullName| < 3 ==> issues[0] == Issue("fullName", NameRequired)
    ensures forall i :: 0 <= i < |issues| ==>
      issues[i].path in {"fullName", "email", "password", "confirmPassword"}
  {
    Check(|form.fullName| >= 3, Issue("fullName", NameRequired))
    + Check(isEmail(form.email), Issue("email", InvalidEmail))
    + Check(|form.password| >= 8, Issue("password", PasswordTooShort))
    + Check(|form.confirmPassword| >= 8, Issue("confirmPassword", ConfirmTooShort))
    + Check(form.password == form.confirmPassword, Issue("confirmPassword", ConfirmMismatch))
  }

  predicate Valid(form: RegisterForm, isEmail: string -> bool) {
    RegisterIssues(form, isEmail) == []
  }

  /** A mismatch is reported on `confirmPassword` even when other fields fail too. */
  lemma {:induction false} MismatchAlwaysReported(form: RegisterForm, isEmail: string -> bool)
    requires form.password != form.confirmPassword
    ensures !Valid(form, isEmail)
    ensures Issue("confirmPassword", ConfirmMismatch) in RegisterIssues(form, isEmail)
  {
  }

  /** A rule's issue is present exactly when that rule fails. */
  lemma {:induction false} CheckMembership(ok: bool, issue: Issue, x: Issue)
    ensures x in Check(ok, issue) <==> !ok && x == issue
  {
  }

  /** A short name is reported on `fullName`, and only a short name is. */
  lemma {:induction false} NameIssue(form: RegisterForm, isEmail: string -> bool)
    ensures Issue("fullName", NameRequired) in RegisterIssues(form, isEmail) <==> |form.fullName| < 3
  {
    var x := Issue("fullName", NameRequired);
    assert x.path != "email" && x.path != "password" && x.path != "confirmPassword";
  }

  /** A malformed email is reported on `email`, and only a malformed email is. */
  lemma {:induction false} EmailIssue(form: RegisterForm, isEmail: string -> bool)
    ensures Issue("email", InvalidEmail) in RegisterIssues(form, isEmail) <==> !isEmail(form.email)
  {
    var x := Issue("email", InvalidEmail);
    assert x.path != "fullName" && x.path != "password" && x.path != "confirmPassword";
  }

  /** A short password is reported on `password`, and only a short password is. */
  lemma {:induction false} PasswordIssue(form: RegisterForm, isEmail: string -> bool)
    ensures Issue("password", PasswordTooShort) in RegisterIssues(form, isEmail) <==> |form.password| < 8
  {
    var x := Issue("password", PasswordTooShort);
    assert x.path != "fullName" && x.path != "email" && x.path != "confirmPassword";
  }

  /** A short confirmation is reported on `confirmPassword` with its own message. */
  lemma {:induction false} ConfirmIssue(form: RegisterForm, isEmail: string -> bool)
    ensures Issue("confirmPassword", ConfirmTooShort) in RegisterIssues(form, isEmail)
      <==> |form.confirmPassword| < 8
  {
    var x := Issue("confirmPassword", ConfirmTooShort);
    assert x.path != "fullName" && x.path != "email" && x.path != "password";
    assert ConfirmTooShort != ConfirmMismatch by {
      assert |ConfirmTooShort| != |ConfirmMismatch|;
    }
  }
}

=== FILE: text.dfy ===
/**
 Character classes, ASCII case mapping, prefix and substring tests, and the
 decimal rendering of integers, as the application's string code uses them
 (`toLowerCase`, `includes`, `startsWith`, `toString`, `\d`, `\s`, `<`).
 */
module Text {
  import opened Seqs

  /** The regular-expression class `\d`: the ASCII digits only. */
  predicate IsDigit(c: char) {
    '0' <= c <= '9'
  }

  predicate AllDigits(s: string) {
    forall i :: 0 <= i < |s| ==> IsDigit(s[i])
  }

  /** The regular-expression class `\s`: ECMAScript white space and line terminators. */
  predicate IsSpace(c: char) {
    var u := c as int;
    || 0x09 <= u <= 0x0D || u == 0x20 || u == 0xA0 || u == 0x1680
    || 0x2000 <= u <= 0x200A || u == 0x2028 || u == 0x2029 || u == 0x202F
    || u == 0x205F || u == 0x3000 || u == 0xFEFF
  }

  predicate IsUpperAscii(c: char) {
    'A' <= c <= 'Z'
  }

  predicate IsLowerAscii(c: char) {
    'a' <= c <= 'z'
  }

  function LowerChar(c: char): (r: char)
    ensures !IsUpperAscii(r)
    ensures IsUpperAscii(c) ==> r as int == c as int + 32
    ensures !IsUpperAscii(c) ==> r == c
  {
    if IsUpperAscii(c) then (c as int + 32) as char else c
  }

  function UpperChar(c: char): (r: char)
    ensures !IsLowerAscii(r)
    ensures IsLowerAscii(c) ==> r as int == c as int - 32
    ensures !IsLowerAscii(c) ==> r == c
  {
    if IsLowerAscii(c) then (c as int - 32) as char else c
  }

  /** `toLowerCase`, restricted to the ASCII letters. */
  function Lower(s: string): (r: string)
    ensures |r| == |s|
    ensures forall i :: 0 <= i < |s| ==> r[i] == LowerChar(s[i])
  {
    seq(|s|, i requires 0 <= i < |s| => LowerChar(s[i]))
  }

  /** `toUpperCase`, restricted to the ASCII letters. */
  function Upper(s: string): (r: string)
    ensures |r| == |s|
    ensures forall i :: 0 <= i < |s| ==> r[i] == UpperChar(s[i])
  {
    seq(|s|, i requires 0 <= i < |s| => UpperChar(s[i]))
  }

  /** `s.startsWith(prefix)`. */
  predicate StartsWith(s: string, prefix: string) {
    |prefix| <= |s| && s[..|prefix|] == prefix
  }

  /** `needle` occurs in `hay` starting at index `i`. */
  predicate OccursAt(hay: string, needle: string, i: int) {
    0 <= i && i + |needle| <= |hay| && hay[i..i + |needle|] == needle
  }

  /** `hay.includes(needle)`, computed by trying each start position in turn. */
  predicate Contains(hay: string, needle: string)
    decreases |hay|
  {
    StartsWith(hay, needle) || (|hay| > 0 && Contains(hay[1..], needle))
  }

  /** The scan finds a match exactly when the needle occurs somewhere. */
  lemma {:induction false} ContainsOccurs(hay: string, needle: string)
    ensures Contains(hay, needle) <==> exists i :: OccursAt(hay, needle, i)
    decreases |hay|
  {
    if StartsWith(hay, needle) {
      assert OccursAt(hay, needle, 0);
    } else if |hay| > 0 {
      ContainsOccurs(hay[1..], needle);
      if Contains(hay[1..], needle) {
        var i :| OccursAt(hay[1..], needle, i);
        assert hay[1..][i..i + |needle|] == hay[i + 1..i + 1 + |needle|];
        assert OccursAt(hay, needle, i + 1);
      }
      if exists i :: OccursAt(hay, needle, i) {
        var i :| OccursAt(hay, needle, i);
        assert i != 0;
        assert hay[1..][i - 1..i - 1 + |needle|] == hay[i..i + |needle|];
        assert OccursAt(hay[1..], needle, i - 1);
      }
    } else {
      assert |needle| > 0;
    }
  }

  /** `s.replace(/\D/g, "")`: every ASCII digit of `s`, as often as it occurs, in order; nothing else. */
  function KeepDigits(s: string): (r: string)
    ensures AllDigits(r)
    ensures Subsequence(r, s)
    ensures forall i :: 0 <= i < |s| && IsDigit(s[i]) ==> s[i] in r
  {
    FilterIsSubsequence(s, IsDigit);
    FilterMembers(s, IsDigit);
    Filter(s, IsDigit)
  }

  /**
   Each digit occurs in the result exactly as often as in `s`, and no other
   character occurs; with the order kept, this determines the result.
   */
  lemma KeepDigitsCounts(s: string)
    ensures forall c :: multiset(KeepDigits(s))[c] == if IsDigit(c) then multiset(s)[c] else 0
  {
    FilterMultiset(s, IsDigit);
  }

  /** One character: kept when it is a digit, dropped otherwise. */
  lemma KeepDigitsChar(c: char)
    ensures KeepDigits([c]) == if IsDigit(c) then [c] else []
  {
    assert [c][1..] == [];
  }

  /** Extracting digits twice is the same as extracting them once. */
  lemma {:induction false} KeepDigitsIdempotent(s: string)
    ensures KeepDigits(KeepDigits(s)) == KeepDigits(s)
  {
    FilterIdempotent(s, IsDigit);
  }

  /** A string of digits is its own digit extraction. */
  lemma {:induction false} KeepDigitsOfDigits(s: string)
    requires AllDigits(s)
    ensures KeepDigits(s) == s
  {
    FilterKeepsAll(s, IsDigit);
  }

  /** Digit extraction distributes over concatenation. */
  lemma {:induction false} KeepDigitsAppend(a: string, b: string)
    ensures KeepDigits(a + b) == KeepDigits(a) + KeepDigits(b)
  {
    FilterAppend(a, b, IsDigit);
  }

  /**
   JavaScript's `<` on strings: lexicographic order by character. Characters
   are compared by code point; JavaScript compares UTF-16 code units, which
   orders the same way within the Basic Multilingual Plane.
   */
  predicate StringLess(a: string, b: string)
  {
    if |b| == 0 then false
    else if |a| == 0 then true
    else if a[0] != b[0] then a[0] < b[0]
    else StringLess(a[1..], b[1..])
  }

  /** String `<` is trichotomous: exactly one of a < b, a == b, b < a. */
  lemma {:induction false} StringLessTrichotomy(a: string, b: string)
    ensures StringLess(a, b) ==> !StringLess(b, a) && a != b
    ensures !StringLess(a, b) && a != b ==> StringLess(b, a)
  {
    if |a| > 0 && |b| > 0 && a[0] == b[0] {
      StringLessTrichotomy(a[1..], b[1..]);
      if a[1..] == b[1..] {
        assert a == [a[0]] + a[1..] && b == [b[0]] + b[1..];
      }
    }
  }

  /** String `<` is transitive; with trichotomy it is a strict total order. */
  lemma {:induction false} StringLessTransitive(a: string, b: string, c: string)
    requires StringLess(a, b) && StringLess(b, c)
    ensures StringLess(a, c)
  {
    if |a| > 0 && a[0] == b[0] && b[0] == c[0] {
      StringLessTransitive(a[1..], b[1..], c[1..]);
    }
  }

  function Pow10(k: nat): (r: nat)
    ensures r >= 1
  {
    if k == 0 then 1 else 10 * Pow10(k - 1)
  }

  function DigitValue(c: char): (d: nat)
    requires IsDigit(c)
    ensures d < 10
  {
    c as int - '0' as int
  }

  function DigitChar(d: nat): (c: char)
    requires d < 10
    ensures IsDigit(c) && DigitValue(c) == d
  {
    ('0' as int + d) as char
  }

  /** `n.toString()` for a natural number: its decimal digits, without leading zeros. */
  function ToDecimal(n: nat): (s: string)
    ensures |s| >= 1
    ensures AllDigits(s)
    ensures s[0] == '0' <==> n == 0
  {
    if n < 10 then [DigitChar(n)] else ToDecimal(n / 10) + [DigitChar(n % 10)]
  }

  /** The number a string of decimal digits denotes. */
  function ParseDecimal(s: string): nat
    requires AllDigits(s)
  {
    if |s| == 0 then 0 else 10 * ParseDecimal(s[..|s| - 1]) + DigitValue(s[|s| - 1])
  }

  /** Reading back the decimal rendering gives the number. */
  lemma {:induction false} ParseToDecimal(n: nat)
    ensures ParseDecimal(ToDecimal(n)) == n
  {
    if n >= 10 {
      ParseToDecimal(n / 10);
      var s := ToDecimal(n);
      assert s[..|s| - 1] == ToDecimal(n / 10);
    }
  }

  /** A digit string without a leading zero is a number's decimal rendering. */
  lemma {:induction false} ToDecimalOfParse(s: string)
    requires |s| >= 1 && AllDigits(s)
    requires |s| > 1 ==> s[0] != '0'
    ensures ToDecimal(ParseDecimal(s)) == s
  {
    if |s| == 1 {
      assert DigitChar(DigitValue(s[0])) == s[0];
    } else {
      var p := s[..|s| - 1];
      ParsePositive(p);
      ToDecimalOfParse(p);
      var n := ParseDecimal(s);
      assert n / 10 == ParseDecimal(p) && n % 10 == DigitValue(s[|s| - 1]);
      assert DigitChar(DigitValue(s[|s| - 1])) == s[|s| - 1];
      assert s == p + [s[|s| - 1]];
    }
  }

  lemma {:induction false} ParsePositive(s: string)
    requires |s| >= 1 && AllDigits(s) && s[0] != '0'
    ensures ParseDecimal(s) >= 1
  {
    if |s| > 1 {
      ParsePositive(s[..|s| - 1]);
    }
  }

  /** The decimal rendering has at most `k` digits exactly when the number is below 10^k. */
  lemma {:induction false} DecimalLength(n: nat, k: nat)
    requires k >= 1
    ensures |ToDecimal(n)| <= k <==> n < Pow10(k)
  {
    if n >= 10 {
      if k == 1 {
        assert |ToDecimal(n)| == |ToDecimal(n / 10)| + 1;
      } else {
        DecimalLength(n / 10, k - 1);
        assert n / 10 < Pow10(k - 1) <==> n < 10 * Pow10(k - 1);
      }
    } else {
      assert Pow10(k) >= 10 by { PowAtLeastTen(k); }
    }
  }

  lemma {:induction false} PowAtLeastTen(k: nat)
    requires k >= 1
    ensures Pow10(k) >= 10
  {
    if k > 1 {
      PowAtLeastTen(k - 1);
    }
  }

  /** The last two characters of a number of at least two digits denote the number modulo 100. */
  lemma {:induction false} LastTwoDigits(n: nat)
    requires n >= 10
    ensures |Last(ToDecimal(n), 2)| == 2
    ensures ParseDecimal(Last(ToDecimal(n), 2)) == n % 100
  {
    LastTwoChars(n);
    ParseTwoDigits((n / 10) % 10, n % 10);
    assert 10 * ((n / 10) % 10) + n % 10 == n % 100;
  }

  lemma {:induction false} LastTwoChars(n: nat)
    requires n >= 10
    ensures Last(ToDecimal(n), 2) == [DigitChar((n / 10) % 10), DigitChar(n % 10)]
  {
    var s := ToDecimal(n);
    var u := ToDecimal(n / 10);
    assert s == u + [DigitChar(n % 10)];
    assert u[|u| - 1] == DigitChar((n / 10) % 10) by {
      if n / 10 >= 10 {
        assert u == ToDecimal(n / 10 / 10) + [DigitChar((n / 10) % 10)];
      }
    }
  }

  lemma {:induction false} ParseTwoDigits(a: nat, b: nat)
    requires a < 10 && b < 10
    ensures ParseDecimal([DigitChar(a), DigitChar(b)]) == 10 * a + b
  {
    var t := [DigitChar(a), DigitChar(b)];
    assert t[..1] == [DigitChar(a)];
    assert t[..1][..0] == [];
    assert ParseDecimal(t[..1]) == a;
    assert ParseDecimal(t) == 10 * ParseDecimal(t[..1]) + DigitValue(t[1]);
  }

  /** `i.toString()` for any integer: a minus sign before the magnitude when negative. */
  function IntToString(i: int): (s: string)
    ensures |s| >= 1
    ensures i >= 0 ==> s == ToDecimal(i)
    ensures i < 0 ==> s[0] == '-' && s[1..] == ToDecimal(-i)
  {
    if i < 0 then "-" + ToDecimal(-i) else ToDecimal(i)
  }
}
